=== FILE: README.md ===
# UJOE agent core in Dafny

A model of the core of the UJOE agent, with proofs. UJOE is a local
plan/act/reflect agent: a language model proposes actions and a dispatcher
routes them to a sandboxed shell, a scoped file tool or a vector index. The
model covers these parts:

- **Chunking** — `Fingerprinter.chunk_text`, the overlapping fixed-window text
  splitter. Python's slice clamping is written out.
- **ScopedFiles** — `LocalFileTool.read` and `write`. Paths are lists of
  segments and resolution is lexical. The filesystem is a map of files plus
  a set of directories. A file holds UTF-8 text or bytes that do not
  decode. The containment test is `root in target.parents or root ==
  target`. `read_text` raises on undecodable bytes and translates `\r\n` and
  `\r` to `\n`.
- **Planning** — the plan parser of `AgentOrchestrator._plan`.
- **Dispatch** — `AgentOrchestrator._dispatch_tool`. Routing is a
  case-insensitive substring test where the first match wins. The action's
  argument is the text after the first colon. The tool call that follows is
  a parameter (`Toolbox`).
- **Orchestrator** — the plan → act → reflect graph run by
  `AgentOrchestrator.run`. It covers `AgentState`, the audit events and the
  loop guard `not completed and iterations < max_iters`. The language model
  is the sequence of its replies, consumed in call order.
- **Ingestion** — `VectorStore.ingest_files`, `_already_ingested` and
  `iter_paths`:
  - The Chroma collection is a map from chunk id to stored chunk.
  - `collection.add` keeps an entry already stored under the same id.
  - SHA-256 and UTF-8 decoding are parameters (`Codec`).
- **Text**, **Tools**, **Results** — supporting modules:
  - **Text** holds the Python `str` operations the core uses (`lower`, `in`,
    `strip`, `split`, `rfind`, `str(int)`).
  - **Tools** holds `ToolResult` and the sandbox's result conversion.
  - **Results** holds `Option` and `Result`. `Raised(e)` stands for a Python
    exception that escapes.

Points where the code's behaviour is easy to misread:

- `chunk_text` produces `ceil(len(text) / step)` chunks, with
  `step = chunk_size - chunk_overlap`, not `ceil((len(text) - overlap) / step)`.
  For example, "abcdefghij" with size 4 and overlap 2 gives five chunks, the
  last one "ij".
- `_dispatch_tool` takes the argument after the first colon
  (`split(":", 1)[-1]`), not the last.
- A file whose decoded text is empty adds no chunk. Nothing records it as
  ingested, so every later call hashes and checks it again.
- `_build_graph` adds an unconditional `reflect → END` edge
  (uj0e/orchestrator.py:46) next to the conditional `reflect → act` edge
  (uj0e/orchestrator.py:47). The model takes the conditional edge as the
  loop guard: iterate until completed or out of budget.

## Model

| member | source | states |
|---|---|---|
| Chunking.Chunks | uj0e/tools.py:125-132 | The definition of `chunk_text`: the window at 0, then at each further `step` while inside the text. It is defined for empty text whatever the parameters, and otherwise only for `chunk_size > chunk_overlap`. What it computes is stated by `ChunkShape` and `ChunkLoopFinishes`. |
| Chunking.ChunkShape | uj0e/tools.py:125-132 | With `step = size - overlap > 0`: there are exactly `ceil(len(text)/step)` chunks, and none exactly when the text is empty. Chunk `i` exists iff `i*step < len(text)`. Chunk `i` is the window `text[i*step : i*step+size]`. |
| Chunking.ChunkBounds | uj0e/tools.py:128-131 | Every chunk starts inside the text, is the slice from its start to `min(start+size, len)`, and is non-empty and at most `size` long. |
| Chunking.ChunksCover | uj0e/tools.py:128-131 | With a non-negative overlap, every character of the text sits in some chunk at the matching offset: the chunks together lose nothing. |
| Chunking.ChunkExample | tests/test_tools.py:6-10 | `chunk_text("abcdefghij", 4, 2)` is exactly `["abcd", "cdef", "efgh", "ghij", "ij"]`. So the first chunk is "abcd" and the second starts with "cd". |
| Chunking.ChunkLoop | uj0e/tools.py:127-131 | The definition of the `while start < len(text)` loop as written, with a bound on the number of iterations; `None` means the bound ran out. What it does is stated by `ChunkLoopDiverges` and `ChunkLoopFinishes`. |
| Chunking.ChunkLoopDiverges | uj0e/tools.py:127-131 | With `size <= overlap` and non-empty text, the loop as written never finishes, for any bound on the number of iterations. |
| Chunking.ChunkLoopFinishes | uj0e/tools.py:127-131 | With `size > overlap`, the loop as written finishes within `len(text)` iterations and returns exactly the chunk list of `ChunkShape`. |
| Chunking.SliceBound | uj0e/tools.py:130 | Python's slice bound: a bound inside `[0, n]` is itself, and every bound lands in `[0, n]`. |
| Text.StripSpec | uj0e/orchestrator.py:62 | `str.strip(chars)` keeps the infix between a dropped prefix and a dropped suffix, and neither end of it is a dropped character. The result is empty iff every character is dropped. |
| Text.JoinSplit | uj0e/orchestrator.py:62 | Splitting on a separator and joining the pieces back gives the text back. |
| Text.SplitJoin | uj0e/orchestrator.py:62 | Joining separator-free pieces and splitting again gives the pieces back. |
| Text.SplitAppend | uj0e/orchestrator.py:62 | Splitting `a + sep + b` gives the pieces of `a` followed by the pieces of `b`. |
| Text.AfterFirst | uj0e/orchestrator.py:103 | `s.split(c, 1)[-1]` is `s` when `c` does not occur, and otherwise the text after the first `c`. |
| Text.NatToStringInjective | uj0e/vector.py:37 | Distinct chunk positions have distinct decimal renderings. |
| Text.LastIndexOf | uj0e/vector.py:66 | `rfind` returns -1 iff the character is absent. Otherwise it returns a position holding the character with no occurrence after it. |
| Tools.SandboxResult | uj0e/tools.py:63-78 | The result is ok iff the process exited with status 0. An exited process's output is stdout then stderr, with its duration as metadata. A launch exception becomes a failed result carrying the exception text, so nothing escapes. |
| ScopedFiles.Read | uj0e/tools.py:88-94 | A target outside the root is "Access denied" whatever the filesystem holds. An in-root target that does not exist is "Not found". A directory or an undecodable file raises. A text file gives its text with line endings translated and ok set. Each case holds iff its condition does. |
| ScopedFiles.ReadNewlinesKeepsPlainText | uj0e/tools.py:94 | `read_text` returns text without carriage returns unchanged. |
| ScopedFiles.ReadNewlinesRemovesReturns | uj0e/tools.py:94 | Text from `read_text` never holds a carriage return, and translating it again changes nothing. |
| ScopedFiles.CrLfReadsAsNewline | uj0e/tools.py:94 | `"x\r\ny"` reads back as `"x\ny"`. |
| ScopedFiles.Write | uj0e/tools.py:96-102 | A target outside the root is "Access denied" and changes nothing. An in-root write raises iff an ancestor of the target is a file or the target is a directory. Otherwise it stores the content at the target, creates the missing ancestors and reports "written" with the resolved path. |
| ScopedFiles.Walk | uj0e/tools.py:89 | Lexical resolution keeps a resolved base resolved. What it computes is stated by `WalkWithoutParent`, `WalkAppend` and `ParentUndoesSegment`. |
| ScopedFiles.WalkWithoutParent | uj0e/tools.py:89 | Without `..`, resolving appends the plain segments to the base in order: `.` and empty segments vanish and nothing else changes. |
| ScopedFiles.WalkAppend | uj0e/tools.py:89 | Resolving a joined path is resolving its first part and then its second part from there. |
| ScopedFiles.ParentUndoesSegment | uj0e/tools.py:89 | `..` after a plain segment returns to the base, and `..` at `/` stays at `/`. |
| ScopedFiles.ResolveUnder | uj0e/tools.py:89 | Resolving below a resolved root, or resolving an absolute argument, yields a resolved path. |
| ScopedFiles.DeniedIsNotPrefix | uj0e/tools.py:90 | The refusal test is exactly "the root is not a prefix of the resolved target". |
| ScopedFiles.DeniedIgnoresFilesystem | uj0e/tools.py:90-91 | A refused path gets "Access denied" from both read and write, whatever the filesystem holds. The write leaves the filesystem unchanged. |
| ScopedFiles.RelativeWithoutParentIsInside | uj0e/tools.py:89-90 | A relative argument without `..` segments is never refused. |
| ScopedFiles.ParentEscapeDenied | uj0e/tools.py:89-91 | `"../" + name` resolves to a sibling of the root and is refused by both read and write, unless the sibling is the root itself. |
| ScopedFiles.EvilTxtDenied | tests/test_tools.py:13-18 | With a root below `/` not named "evil.txt", reading "../evil.txt" is refused. |
| ScopedFiles.WriteThenRead | uj0e/tools.py:94-101 | After a successful in-root write, reading the same argument returns the written content with its line endings translated, with ok set. |
| ScopedFiles.WriteThenReadExactly | tests/test_tools.py:13-16 | Content without carriage returns, such as the test's "hello", reads back exactly. |
| ScopedFiles.WriteFrame | uj0e/tools.py:100-101 | A write changes no file other than its target and only ever adds directories. |
| ScopedFiles.WritePreservesWf | uj0e/tools.py:100-101 | Writes keep the filesystem well formed: `/` is a directory, nothing is both file and directory, and ancestors are directories. |
| Planning.ParsePlan | uj0e/orchestrator.py:62 | The definition of the plan parser: split on `"\n"`, keep the lines whose `strip()` is non-empty, and strip `-` and space from both ends of each. What it computes is stated by `ParsePlanAppend`, `ParsePlanLine` and `PlanEntriesTrimmed`. |
| Planning.ParsePlanAppend | uj0e/orchestrator.py:62 | The plan of `a + "\n" + b` is the plan of `a` followed by the plan of `b`. |
| Planning.ParsePlanLine | uj0e/orchestrator.py:62 | A single blank line gives no entry. A single non-blank line gives exactly one entry, the line with `-` and space stripped from both ends. |
| Planning.PlanEntriesTrimmed | uj0e/orchestrator.py:62 | No plan entry starts or ends with `-` or a space. |
| Planning.EmptyReplyEmptyPlan | uj0e/orchestrator.py:62 | An empty or all-whitespace reply gives an empty plan. |
| Planning.DashLineGivesEmptyEntry | uj0e/orchestrator.py:62 | A line of dashes survives the blank-line filter and becomes an empty entry. |
| Dispatch.Route | uj0e/orchestrator.py:100-112 | "sandbox" anywhere, in any case, selects the sandbox. Otherwise "read" selects the file read. Otherwise "retrieve" or "vector" selects retrieval. Each holds iff the tests before it failed. An unknown action keeps its original text, and every tool gets the same argument. |
| Dispatch.ToolArgument | uj0e/orchestrator.py:103-109 | The argument is the whitespace-stripped text after the first colon, or the whole stripped action when there is no colon. |
| Dispatch.Execute | uj0e/orchestrator.py:102-112 | The definition of the tool call for a routed action: the sandbox result, the file read, the retrieval result with its hit count, or the unknown-action failure. `DispatchTool` states what it returns. |
| Dispatch.DispatchTool | uj0e/orchestrator.py:100-112 | Only a routed file read or a retrieval query can raise. A failing query raises its own error. A retrieval that returns is ok and reports its hit count. An unknown action fails with "Unknown action: " and the original text. Reads and sandbox runs return what those tools return for the argument. |
| Dispatch.SandboxWinsOverRead | uj0e/orchestrator.py:101-104 | "Read in Sandbox: cat a:b" goes to the sandbox with command "cat a:b", keeping the colon inside the command. |
| Orchestrator.PlanStep | uj0e/orchestrator.py:56-65 | `plan` raises iff the model gives no reply. Otherwise the plan is the parsed reply and the raw reply is appended to the history. A "plan" event carries the goal and plan. Nothing else changes. |
| Orchestrator.ActStep | uj0e/orchestrator.py:67-83 | With the budget spent, `act` only marks the run completed. Otherwise it returns iff the context lookup for the goal returns, there is a reply, and the reply's dispatch does not raise. It stores the result, appends the action to the history, counts one iteration and logs "act" with the action, output and ok flag. |
| Orchestrator.ReflectStep | uj0e/orchestrator.py:85-98 | `reflect` raises iff there is no reply. Otherwise it appends the reply to the history and leaves the run completed iff it already was or the reply says "success" or "done" in any case. |
| Orchestrator.Loop | uj0e/orchestrator.py:45-47 | The act → reflect loop returns only when the guard of the conditional edge is false, that is completed or out of budget. It never changes the goal or the budget. |
| Orchestrator.Run | uj0e/orchestrator.py:50-54 | `run` raises without a reply for the plan. When it returns, the guard is false and the goal and budget are those it was called with. |
| Orchestrator.PairStep | uj0e/orchestrator.py:67-98 | One act/reflect pair from inside the loop adds two history entries and one "act" event and consumes two replies. It sets `completed` iff the reflection signals completion. |
| Orchestrator.LoopEnds | uj0e/orchestrator.py:47-98 | The loop ends after at least one more iteration and never more than `max_iters`. It stops only when completed or out of budget, and keeps the history/audit shape. |
| Orchestrator.LoopReturns | uj0e/orchestrator.py:67-98 | The loop returns when there are enough replies, the context lookup for the goal does not raise, and every action reply (the even positions) dispatches without raising. Reflection replies are never dispatched, so nothing is asked of them. |
| Orchestrator.LoopWithoutSignal | uj0e/orchestrator.py:94-97 | Without a completion signal in any reflection, the loop ends at exactly `max_iters` iterations, not completed. |
| Orchestrator.RunEnds | uj0e/orchestrator.py:50-98 | A returning run with `max_iters >= 1` has between 1 and `max_iters` iterations and ended completed or out of budget. Its history is exactly the consumed replies in order, beginning with the plan text: one plan entry plus two per iteration. The audit log is one "plan" event then one "act" event per iteration, naming that iteration's action. |
| Orchestrator.RunReturns | uj0e/orchestrator.py:50-98 | `run` returns when `max_iters >= 1`, there are `1 + 2*max_iters` replies, the context lookup does not raise, and every action reply dispatches without raising. After the plan, the action replies are at the odd positions. |
| Orchestrator.RunExhaustsBudget | uj0e/orchestrator.py:94-97 | If no reflection says "success" or "done", `run` performs exactly `max_iters` act/reflect pairs and ends not completed. |
| Orchestrator.RunStopsAtFirstSignal | uj0e/orchestrator.py:94-97 | If the first reflection signals completion, `run` stops after one pair, completed, with three history entries. It returns iff the context lookup for the goal and the first action's dispatch do not raise. |
| Orchestrator.RunWithoutBudget | uj0e/orchestrator.py:50-98 | With `max_iters <= 0`, `run` still plans, acts once without calling the model (marking the run completed) and reflects once. The result has no iteration, no "act" event and two history entries. |
| Ingestion.ChunkIdInjective | uj0e/vector.py:37 | Ids `f"{fp}:{i}"` from distinct (digest, position) pairs never collide. |
| Ingestion.ChunkIdFingerprint | uj0e/vector.py:37 | The text before the first colon of a chunk id is its digest. |
| Ingestion.AlreadyIngested | uj0e/vector.py:50-52 | The definition of `_already_ingested`: some stored chunk carries the fingerprint. Its effect on ingestion is stated by `IngestOneSpec` and `SettledAddsNothing`. |
| Ingestion.AddChunks | uj0e/vector.py:38 | The definition of `collection.add`: the new entries join the index, and an id already stored keeps its entry. What it stores is stated by `AddChunksStores` and `AddChunksGrows`. |
| Ingestion.NewEntriesSpec | uj0e/vector.py:36-38 | The entries for one file are exactly one per chunk, under `fp:0 … fp:n-1` in order. Each holds its chunk and the metadata `{source, fingerprint}`. |
| Ingestion.AddChunksStores | uj0e/vector.py:37-38 | For a file not yet ingested, every chunk is stored under an id unused so far, with the file's metadata, and no other id appears. |
| Ingestion.AddChunksGrows | uj0e/vector.py:38-39 | Adding a new file's chunks grows the index by exactly the number of chunks, changes nothing stored and keeps ids tagged by their own fingerprint. |
| Ingestion.IngestOne | uj0e/vector.py:30-40 | The definition of one pass of the loop of `ingest_files`: skip a stored fingerprint, otherwise add the file's chunks and count them. It is defined for any chunk parameters when the file is settled. What it computes is stated by `IngestOneSpec` and `SettledAddsNothing`. |
| Ingestion.IngestFiles | uj0e/vector.py:28-41 | The definition of `ingest_files`: the files in order, each against the index the previous ones left. What it computes is stated by `IngestFilesSpec`, `IngestFilesSettles` and `IngestTwice`. |
| Ingestion.IngestOneSpec | uj0e/vector.py:30-40 | A file whose fingerprint is already stored is skipped with count 0 and no change. Otherwise its chunks are added and counted. Either way the index grows by exactly the count and no stored chunk changes. |
| Ingestion.IngestFilesSpec | uj0e/vector.py:28-41 | The value returned is exactly how much the index grew. No stored chunk changes and the index stays well formed. |
| Ingestion.IngestTwice | uj0e/vector.py:28-52 | Ingesting the same files again returns 0 and leaves the index unchanged. |
| Ingestion.SameContentOnce | uj0e/vector.py:30-38 | Two files with identical content in one call: the second is checked against the live index and adds nothing. The call equals ingesting the first alone. |
| Ingestion.EmptyTextNotRecorded | uj0e/vector.py:36-52 | Whatever the chunk parameters, a file whose text is empty adds nothing and does not become "already ingested". |
| Ingestion.SettledAddsNothing | uj0e/vector.py:34-36 | Whatever the chunk parameters, a file whose fingerprint is stored, or whose text is empty, adds 0 and leaves the index alone. |
| Ingestion.IngestFilesSettles | uj0e/vector.py:28-41 | After `ingest_files`, every file of the call has its fingerprint stored or has empty text. |
| Ingestion.IterPaths | uj0e/vector.py:62-68 | The definition of `iter_paths` over the `rglob` enumeration. What it returns is stated by `IterPathsMembers` and `IterPathsAppend`. |
| Ingestion.IterPathsMembers | uj0e/vector.py:62-68 | A path is returned iff some listed entry with that path is a file whose lower-cased suffix is allowed. |
| Ingestion.IterPathsAppend | uj0e/vector.py:65-67 | Filtering a concatenated listing filters each part, so the selected paths keep their enumeration order. |
| Ingestion.Suffix | uj0e/vector.py:66 | A suffix is empty or starts with its only dot, is a proper tail of the name, and is at least two characters long. It is non-empty iff the name has a dot after its first character and does not end with a dot. |
| Ingestion.UpperCaseExtensionSelected | uj0e/vector.py:62-66 | With the default extensions, the file "docs/A.MD" is kept because suffixes are compared in lower case, and the same path as a directory is not. |
| Ingestion.SuffixExamples | uj0e/vector.py:66 | ".md" has no suffix, and "notes.txt.gz" has suffix ".gz". |

## Left out

- Docker and subprocess invocation in `SandboxTool.run` (argument vector, resource limits, timeout, wall clock): these are I/O. The launch outcome is a parameter (`Toolbox.sandbox`).
- Model prompts and `ModelClient` (HTTP, retries): these are I/O. The model is its reply sequence, and running out stands for the exception raised after retries. The documents that `_act`'s context lookup returns only feed the prompt and are dropped. The lookup itself (`tools.query(goal, 2)`, uj0e/orchestrator.py:72) is modelled, and it can raise.
- `AuditLogger` file I/O: the audit log is the list of events it would write.
- Chroma internals (`VectorStore.__init__`, `query` similarity search, `cleanup`): these are foreign library calls. Retrieval is a parameter (`Toolbox.query`) that returns documents or raises, and the index is a map.
- `Fingerprinter.sha256` streaming and UTF-8 decoding with `errors="ignore"`: both are parameters (`Codec`). The digest is assumed to be 64 lower-case hex digits.
- `LocalFileTool.__init__`: the root is assumed already resolved, and creating it is left out. Symbolic links, `//` roots and filesystem errors other than the three modelled ones are left out.
- `collection.add` with an empty chunk list: whether Chroma accepts or raises on an empty add depends on its version. The model treats it as adding nothing.
- Reading a file in `ingest_files` cannot fail in the model.
- `str.lower`: the model lowers ASCII letters only. Case folding beyond ASCII is left out.
- Chunking.ChunkBounds: requires `chunk_size >= 1`. With `chunk_size <= 0` a negative slice end counts from the end of the text, so a chunk can be empty or longer than `chunk_size`.
- Ingestion.IngestFiles: requires `chunk_size > chunk_overlap` unless every file is settled (fingerprint stored or empty text). Otherwise `chunk_text` never returns on the first unsettled file's text (see `Chunking.ChunkLoopDiverges`).
- Orchestrator.LoopReturns: one `Toolbox`, and so one file tree, serves the whole loop. Without Docker, `SandboxTool.run` runs the command on the host, where it can change files a later read sees, for example by creating a directory that a later read then raises on. The model does not follow such changes. With Docker the container mounts nothing and the fixed tree is exact.
- Orchestrator.RunReturns: as for `LoopReturns`, the premise that every action reply dispatches without raising is taken against one file tree for the whole run.
- `read_text` and `write_text` use the locale encoding. The model takes it to be UTF-8 and the line separator to be `\n`, so a write stores its text unchanged.
- Dispatch.DispatchTool: states the unknown-action failure in one direction only. A sandbox launch failure or a read can produce the same result text.

=== FILE: chunking.dfy ===
/** `Fingerprinter.chunk_text`: fixed windows of `chunkSize` characters whose
    starts are `chunkSize - chunkOverlap` apart. */
module Chunking {
  import opened Results

  /** How Python clamps a slice bound against a length `n`: negative bounds
      count from the end, and both ends saturate. */
  function SliceBound(i: int, n: nat): (b: nat)
    ensures b <= n
    ensures 0 <= i <= n ==> b == i
  {
    if i < 0 then (if n + i < 0 then 0 else n + i) else if i > n then n else i
  }

  /** `s[lo:hi]`. */
  function PySlice<T>(s: seq<T>, lo: int, hi: int): seq<T> {
    var a := SliceBound(lo, |s|);
    var b := SliceBound(hi, |s|);
    if a < b then s[a..b] else []
  }

  /** The loop of `chunk_text` entered with `start`: while `start` is inside
      the text, take the window at `start` and move to `start + chunkSize -
      chunkOverlap`. It advances only when `chunkSize > chunkOverlap`. */
  function ChunksFrom(text: string, chunkSize: int, chunkOverlap: int, start: nat): seq<string>
    requires chunkSize > chunkOverlap || start >= |text|
    decreases |text| - start
  {
    if start < |text| then
      [Window(text, start, chunkSize)] + ChunksFrom(text, chunkSize, chunkOverlap, start + chunkSize - chunkOverlap)
    else []
  }

  /** `chunk_text(text, chunkSize, chunkOverlap)`. Empty text gives no
      chunks whatever the parameters; otherwise the loop finishes only when
      `chunkSize > chunkOverlap` (see `ChunkLoopDiverges`). */
  function Chunks(text: string, chunkSize: int, chunkOverlap: int): seq<string>
    requires chunkSize > chunkOverlap || |text| == 0
  {
    ChunksFrom(text, chunkSize, chunkOverlap, 0)
  }

  /** `ceil(n / step)`. */
  function CeilDiv(n: nat, step: int): nat
    requires step > 0
  {
    (n + step - 1) / step
  }

  /** From `start`, there is one chunk for each start `start + i*step` that
      lies inside the text. */
  lemma {:induction false} ChunksFromCount(text: string, chunkSize: int, chunkOverlap: int, start: nat)
    requires chunkSize > chunkOverlap
    ensures var n, step := |ChunksFrom(text, chunkSize, chunkOverlap, start)|, chunkSize - chunkOverlap;
      && start + n * step >= |text|
      && (n == 0 || start + (n - 1) * step < |text|)
    decreases |text| - start
  {
    var step := chunkSize - chunkOverlap;
    if start < |text| {
      var next := start + step;
      var n' := |ChunksFrom(text, chunkSize, chunkOverlap, next)|;
      ChunksFromCount(text, chunkSize, chunkOverlap, next);
      assert |ChunksFrom(text, chunkSize, chunkOverlap, start)| == n' + 1;
      Distrib(n', step);
      if n' > 0 {
        Distrib(n' - 1, step);
      }
    }
  }

  /** From `start`, chunk `i` is the window at `start + i*step`. */
  lemma {:induction false} ChunkFromAt(text: string, chunkSize: int, chunkOverlap: int, start: nat, i: nat)
    requires chunkSize > chunkOverlap
    requires i < |ChunksFrom(text, chunkSize, chunkOverlap, start)|
    ensures ChunksFrom(text, chunkSize, chunkOverlap, start)[i] == Window(text, start + i * (chunkSize - chunkOverlap), chunkSize)
    decreases i
  {
    var step := chunkSize - chunkOverlap;
    var r := ChunksFrom(text, chunkSize, chunkOverlap, start);
    if i > 0 {
      var rest := ChunksFrom(text, chunkSize, chunkOverlap, start + step);
      assert r == [Window(text, start, chunkSize)] + rest;
      assert r[i] == rest[i - 1];
      ChunkFromAt(text, chunkSize, chunkOverlap, start + step, i - 1);
      Distrib(i - 1, step);
      assert start + step + (i - 1) * step == start + i * step;
    }
  }

  /** The window of `chunkSize` characters at `at`. */
  function Window(text: string, at: int, chunkSize: int): string {
    PySlice(text, at, at + chunkSize)
  }

  lemma Distrib(a: int, b: int)
    ensures (a + 1) * b == a * b + b
  {
  }

  /** Two multiples of a positive step straddling `n` pin down `ceil(n / step)`. */
  lemma CeilDivUnique(n: nat, step: int, k: nat)
    requires step > 0
    requires k * step >= n
    requires k == 0 || (k - 1) * step < n
    ensures k == CeilDiv(n, step)
  {
    var m := n + step - 1;
    Distrib(k, step);
    if k > 0 {
      Distrib(k - 1, step);
    }
    DivisionBetweenMultiples(m, step, k);
  }

  lemma DivisionBetweenMultiples(m: int, step: int, k: int)
    requires step > 0
    requires k * step <= m < (k + 1) * step
    ensures m / step == k
  {
    var q, r := m / step, m % step;
    assert m == q * step + r && 0 <= r < step;
    if q < k {
      MultiplyMonotone(q + 1, k, step);
      assert false;
    } else if q > k {
      MultiplyMonotone(k + 1, q, step);
      assert false;
    }
  }

  /** `j // step`, as a witness: `j` lies within one step after its multiple,
      and it lands below `n` whenever `j` does below `n * step`. */
  lemma Quotient(j: nat, step: int, n: nat) returns (q: nat)
    requires step > 0
    ensures q * step <= j < q * step + step
    ensures j < n * step ==> q < n
  {
    q := j / step;
    assert j == q * step + j % step;
    if j < n * step && q >= n {
      MultiplyMonotone(n, q, step);
      assert false;
    }
  }

  lemma MultiplyMonotone(a: int, b: int, step: int)
    requires a <= b && step > 0
    ensures a * step <= b * step
  {
    assert b * step - a * step == (b - a) * step;
  }

  /** The shape of `chunk_text(text, chunkSize, chunkOverlap)`: with
      `step = chunkSize - chunkOverlap` there are `ceil(len(text) / step)`
      chunks (none for empty text), chunk `i` is the slice
      `text[i*step : i*step + chunkSize]`, and the starts `i*step` are exactly
      the multiples of `step` below `len(text)`. */
  lemma ChunkShape(text: string, chunkSize: int, chunkOverlap: int)
    requires chunkSize > chunkOverlap
    ensures var r, step := Chunks(text, chunkSize, chunkOverlap), chunkSize - chunkOverlap;
      && |r| == CeilDiv(|text|, step)
      && (|r| == 0 <==> |text| == 0)
      && (forall i: nat :: i < |r| <==> i * step < |text|)
      && forall i :: 0 <= i < |r| ==> r[i] == Window(text, i * step, chunkSize)
  {
    var r, step := Chunks(text, chunkSize, chunkOverlap), chunkSize - chunkOverlap;
    var n := |r|;
    assert n * step >= |text| && (n == 0 || (n - 1) * step < |text|) by {
      ChunksFromCount(text, chunkSize, chunkOverlap, 0);
    }
    assert n == CeilDiv(|text|, step) by {
      CeilDivUnique(|text|, step, n);
    }
    assert n == 0 <==> |text| == 0 by {
      StartInside(n, step, |text|, 0);
    }
    forall i | 0 <= i < n
      ensures r[i] == Window(text, i * step, chunkSize)
    {
      ChunkFromAt(text, chunkSize, chunkOverlap, 0, i);
    }
    forall i: nat
      ensures i < n <==> i * step < |text|
    {
      StartInside(n, step, |text|, i);
    }
  }

  /** When the `n`-th multiple of `step` is the first at or past `len`, the
      multiples below `len` are exactly the first `n`. */
  lemma StartInside(n: nat, step: int, len: nat, i: nat)
    requires step > 0
    requires n * step >= len && (n == 0 || (n - 1) * step < len)
    ensures i < n <==> i * step < len
  {
    if i < n {
      MultiplyMonotone(i, n - 1, step);
    } else {
      MultiplyMonotone(n, i, step);
    }
  }

  /** With a positive `chunkSize`, chunk `i` is the plain slice from `i*step`
      to `min(i*step + chunkSize, len(text))`: never empty and never longer
      than `chunkSize`. */
  lemma ChunkBounds(text: string, chunkSize: int, chunkOverlap: int, i: nat)
    requires chunkSize > chunkOverlap && chunkSize >= 1
    requires i < |Chunks(text, chunkSize, chunkOverlap)|
    ensures var r, at := Chunks(text, chunkSize, chunkOverlap), i * (chunkSize - chunkOverlap);
      && 0 <= at < |text|
      && r[i] == text[at .. Min(at + chunkSize, |text|)]
      && 1 <= |r[i]| <= chunkSize
  {
    var step := chunkSize - chunkOverlap;
    var r := Chunks(text, chunkSize, chunkOverlap);
    var at := i * step;
    ChunksFromCount(text, chunkSize, chunkOverlap, 0);
    MultiplyMonotone(i, |r| - 1, step);
    MultiplyMonotone(0, i, step);
    assert 0 <= at < |text|;
    ChunkFromAt(text, chunkSize, chunkOverlap, 0, i);
    assert r[i] == Window(text, at, chunkSize);
    WindowInside(text, at, chunkSize);
  }

  /** A window starting inside the text is the plain slice up to the window's
      end or the text's end, whichever comes first. */
  lemma WindowInside(text: string, at: int, chunkSize: int)
    requires 0 <= at < |text| && chunkSize >= 1
    ensures Window(text, at, chunkSize) == text[at .. Min(at + chunkSize, |text|)]
  {
  }

  function Min(a: int, b: int): int {
    if a < b then a else b
  }

  /** With a non-negative overlap the windows leave no gap: position `j` of
      the text is position `j - i*step` of chunk `i = j / step`. */
  lemma ChunksCover(text: string, chunkSize: int, chunkOverlap: int, j: nat)
    requires chunkSize > chunkOverlap >= 0
    requires j < |text|
    ensures var r, step := Chunks(text, chunkSize, chunkOverlap), chunkSize - chunkOverlap;
      exists i :: 0 <= i < |r| && 0 <= j - i * step < |r[i]| && r[i][j - i * step] == text[j]
  {
    var r, step := Chunks(text, chunkSize, chunkOverlap), chunkSize - chunkOverlap;
    var n := |r|;
    assert n * step >= |text| by {
      ChunksFromCount(text, chunkSize, chunkOverlap, 0);
    }
    var i := Quotient(j, step, n);
    var at := i * step;
    assert 0 <= j - at < |r[i]| && r[i][j - at] == text[j] by {
      ChunkBounds(text, chunkSize, chunkOverlap, i);
      assert r[i] == text[at .. Min(at + chunkSize, |text|)];
    }
  }

  /** The windows of `test_chunk_text_overlap`: size 4 and overlap 2 over
      "abcdefghij" start at 0, 2, 4, 6 and 8; the first is "abcd", the second
      starts with "cd", and the last is a suffix of the one before it. */
  lemma ChunkExample()
    ensures Chunks("abcdefghij", 4, 2) == ["abcd", "cdef", "efgh", "ghij", "ij"]
  {
    var t := "abcdefghij";
    assert Window(t, 8, 4) == "ij";
    assert Window(t, 6, 4) == "ghij";
    assert Window(t, 4, 4) == "efgh";
    assert Window(t, 2, 4) == "cdef";
    assert Window(t, 0, 4) == "abcd";
    assert ChunksFrom(t, 4, 2, 10) == [];
    assert ChunksFrom(t, 4, 2, 8) == ["ij"];
    assert ChunksFrom(t, 4, 2, 6) == ["ghij", "ij"];
    assert ChunksFrom(t, 4, 2, 4) == ["efgh", "ghij", "ij"];
    assert ChunksFrom(t, 4, 2, 2) == ["cdef", "efgh", "ghij", "ij"];
  }

  /** The loop of `chunk_text` exactly as written, with no precondition, run
      for at most `fuel` iterations: `None` means it had not finished. */
  function ChunkLoop(text: string, chunkSize: int, chunkOverlap: int, start: int, fuel: nat): Option<seq<string>>
    decreases fuel
  {
    if start >= |text| then Some([])
    else if fuel == 0 then None
    else
      match ChunkLoop(text, chunkSize, chunkOverlap, start + chunkSize - chunkOverlap, fuel - 1)
      case None => None
      case Some(rest) => Some([Window(text, start, chunkSize)] + rest)
  }

  /** When `chunkOverlap >= chunkSize` the start never moves forward, so on
      text the loop does not finish, whatever the number of iterations. */
  lemma {:induction false} ChunkLoopDiverges(text: string, chunkSize: int, chunkOverlap: int, start: int, fuel: nat)
    requires chunkSize <= chunkOverlap
    requires start < |text|
    ensures ChunkLoop(text, chunkSize, chunkOverlap, start, fuel) == None
    decreases fuel
  {
    if fuel > 0 {
      ChunkLoopDiverges(text, chunkSize, chunkOverlap, start + chunkSize - chunkOverlap, fuel - 1);
    }
  }

  /** When `chunkSize > chunkOverlap` the loop finishes within `len(text)`
      iterations and returns `Chunks`. */
  lemma {:induction false} ChunkLoopFinishes(text: string, chunkSize: int, chunkOverlap: int, start: nat, fuel: nat)
    requires chunkSize > chunkOverlap
    requires fuel >= |text| - start
    ensures ChunkLoop(text, chunkSize, chunkOverlap, start, fuel) == Some(ChunksFrom(text, chunkSize, chunkOverlap, start))
    decreases |text| - start
  {
    if start < |text| {
      ChunkLoopFinishes(text, chunkSize, chunkOverlap, start + chunkSize - chunkOverlap, fuel - 1);
    }
  }
}

=== FILE: dispatch.dfy ===
/** `AgentOrchestrator._dispatch_tool`: a case-insensitive substring router
    over the model's action text, first match wins, and the tool call it
    selects. */
module Dispatch {
  import opened Results
  import opened Text
  import opened Tools
  import opened ScopedFiles

  /** The routing decision, separated from its execution. */
  datatype Action =
    | RunSandbox(command: string)
    | ReadFile(path: string)
    | Retrieve(query: string)
    | Unknown(text: string)

  /** `action.split(":", 1)[-1].strip()`: the trimmed text after the first
      colon, or the whole trimmed text when there is no colon. */
  function ToolArgument(action: string): (r: string)
    ensures ':' !in action ==> r == StripSpace(action)
    ensures ':' in action ==> r == StripSpace(action[IndexOf(action, ':') + 1..])
  {
    StripSpace(AfterFirst(action, ':'))
  }

  predicate Mentions(action: string, word: string) {
    Contains(Lower(action), word)
  }

  /** The three tests of `_dispatch_tool`, in order. "sandbox" wins over
      everything, "read" over retrieval, and an action mentioning none of
      "sandbox", "read", "retrieve" or "vector" is unknown and keeps its
      original, unlowered text. Every tool receives the same argument. */
  function Route(action: string): (r: Action)
    ensures r.RunSandbox? <==> Mentions(action, "sandbox")
    ensures r.ReadFile? <==> !Mentions(action, "sandbox") && Mentions(action, "read")
    ensures r.Retrieve? <==>
              && !Mentions(action, "sandbox") && !Mentions(action, "read")
              && (Mentions(action, "retrieve") || Mentions(action, "vector"))
    ensures r.Unknown? ==> r.text == action
    ensures r.RunSandbox? ==> r.command == ToolArgument(action)
    ensures r.ReadFile? ==> r.path == ToolArgument(action)
    ensures r.Retrieve? ==> r.query == ToolArgument(action)
  {
    if Mentions(action, "sandbox") then RunSandbox(ToolArgument(action))
    else if Mentions(action, "read") then ReadFile(ToolArgument(action))
    else if Mentions(action, "retrieve") || Mentions(action, "vector") then Retrieve(ToolArgument(action))
    else Unknown(action)
  }

  /** One retrieval hit: the stored chunk and its metadata. */
  datatype Doc = Doc(text: string, metadata: map<string, string>)

  /** What a dispatched action can reach: the sandbox (as the launch outcome
      of each command), the scoped file tool, the retrieval index's `query`
      (which can raise: nothing catches a failure of `collection.query`) and
      Python's `str` of a hit list. */
  datatype Toolbox = Toolbox(
    sandbox: string -> Launch,
    root: Path,
    fs: Fs,
    query: (string, nat) -> Result<seq<Doc>>,
    render: seq<Doc> -> string)

  /** `VectorStore.query`'s default `k`, which the retrieval branch uses. */
  const QueryLimit: nat := 4

  function Execute(tools: Toolbox, action: Action): Result<ToolResult> {
    match action
    case RunSandbox(command) => Ok(SandboxResult(tools.sandbox(command)))
    case ReadFile(path) => Read(tools.root, tools.fs, path)
    case Retrieve(query) =>
      (match tools.query(query, QueryLimit)
       case Raised(e) => Raised(e)
       case Ok(docs) => Ok(ToolResult(tools.render(docs), true, Some(map["hits" := Count(|docs|)]))))
    case Unknown(text) => Ok(Failure("Unknown action: " + text))
  }

  /** `_dispatch_tool`. Only the file read and the retrieval query can
      raise; a retrieval that returns is ok and counts its hits; an unknown
      action fails with "Unknown action: " followed by the original text. */
  function DispatchTool(tools: Toolbox, action: string): (r: Result<ToolResult>)
    ensures r.Raised? ==> Route(action).ReadFile? || Route(action).Retrieve?
    ensures Route(action).Unknown? ==> r == Ok(Failure("Unknown action: " + action))
    ensures Route(action).Retrieve? ==>
              var hits := tools.query(ToolArgument(action), QueryLimit);
              && (hits.Raised? ==> r == Raised(hits.error))
              && (hits.Ok? ==>
                    && r.Ok? && r.value.ok
                    && r.value.metadata == Some(map["hits" := Count(|hits.value|)]))
    ensures Route(action).ReadFile? ==> r == Read(tools.root, tools.fs, ToolArgument(action))
    ensures Route(action).RunSandbox? ==> r == Ok(SandboxResult(tools.sandbox(ToolArgument(action))))
  {
    Execute(tools, Route(action))
  }

  /** An action that names both a read and the sandbox goes to the sandbox,
      whatever its case, and the command is the trimmed text after the first
      colon, later colons included. */
  lemma SandboxWinsOverRead()
    ensures Route("Read in Sandbox: cat a:b") == RunSandbox("cat a:b")
  {
    ExampleMentionsSandbox();
    ExampleArgument();
  }

  lemma ExampleMentionsSandbox()
    ensures Mentions("Read in Sandbox: cat a:b", "sandbox")
  {
    var a := "Read in Sandbox: cat a:b";
    var l := Lower(a);
    assert a[8..15] == "Sandbox";
    assert l[8..15] == "sandbox" by {
      forall i | 8 <= i < 15
        ensures l[i] == "sandbox"[i - 8]
      {
        assert l[i] == LowerChar(a[i]);
      }
    }
    assert "sandbox" <= l[8..];
  }

  lemma ExampleArgument()
    ensures ToolArgument("Read in Sandbox: cat a:b") == "cat a:b"
  {
    var a := "Read in Sandbox: cat a:b";
    assert a[15] == ':' && ':' !in a[..15];
    var t := a[16..];
    assert t == " cat a:b";
    assert IsSpace(t[0]) && !IsSpace(t[1]) && !IsSpace(t[7]);
    assert TrimStart(t[1..], IsSpace) == t[1..];
    assert TrimStart(t, IsSpace) == "cat a:b";
    assert TrimEnd("cat a:b", IsSpace) == "cat a:b";
  }
}

=== FILE: ingestion.dfy ===
/** `VectorStore.ingest_files` and `iter_paths`: content-addressed ingestion
    of files into a chunk index. The vector database is a map from chunk id
    to the stored chunk; the hash and the byte decoding are parameters. */
module Ingestion {
  import opened Text
  import opened Chunking

  type Byte = b: int | 0 <= b < 256

  predicate IsHexDigit(c: char) {
    '0' <= c <= '9' || 'a' <= c <= 'f'
  }

  /** The lower-case hexadecimal SHA-256 digest `Fingerprinter.sha256`
      returns. */
  type HexDigest = s: string | |s| == 64 && forall k :: 0 <= k < |s| ==> IsHexDigit(s[k])
    witness seq(64, _ => '0')

  /** The two functions of the file contents ingestion depends on: the
      digest of the bytes, and their UTF-8 decoding with undecodable bytes
      dropped and line endings translated. */
  datatype Codec = Codec(sha256: seq<Byte> -> HexDigest, decode: seq<Byte> -> string)

  datatype SourceFile = SourceFile(path: string, content: seq<Byte>)

  /** A stored chunk: the document and its metadata
      `{"source": path, "fingerprint": digest}`. */
  datatype Entry = Entry(document: string, source: string, fingerprint: HexDigest)

  type Index = map<string, Entry>

  /** The result of an ingestion: the index afterwards and the count
      returned. */
  datatype Ingest = Ingest(index: Index, added: nat)

  /** `f"{fingerprint}:{i}"`. */
  function ChunkId(fp: HexDigest, i: nat): string {
    fp + ":" + NatToString(i)
  }

  /** The digest part of a chunk id: the text before its first colon. */
  function IdFingerprint(id: string): string {
    if ':' in id then id[..IndexOf(id, ':')] else id
  }

  /** Every stored chunk is filed under an id that starts with its own
      fingerprint, as `ingest_files` files them. */
  predicate Wf(index: Index) {
    forall id :: id in index ==> IdFingerprint(id) == index[id].fingerprint
  }

  /** `_already_ingested`: some stored chunk carries this fingerprint. */
  predicate AlreadyIngested(index: Index, fp: HexDigest) {
    exists id :: id in index && index[id].fingerprint == fp
  }

  /** The entries one `collection.add` call files for the chunks of one file. */
  function NewEntries(fp: HexDigest, source: string, chunks: seq<string>): map<string, Entry>
    decreases |chunks|
  {
    if |chunks| == 0 then map[]
    else
      var n := |chunks| - 1;
      NewEntries(fp, source, chunks[..n])[ChunkId(fp, n) := Entry(chunks[n], source, fp)]
  }

  /** `collection.add`: the new entries join the index; an id that is
      already stored keeps its entry. */
  function AddChunks(index: Index, fp: HexDigest, source: string, chunks: seq<string>): Index {
    NewEntries(fp, source, chunks) + index
  }

  /** The body of the loop of `ingest_files` for one file. A settled file
      never reaches `chunk_text`, so it needs no condition on the chunk
      parameters. */
  function IngestOne(codec: Codec, index: Index, file: SourceFile, chunkSize: int, chunkOverlap: int): Ingest
    requires chunkSize > chunkOverlap || Settled(codec, index, file)
  {
    var fp := codec.sha256(file.content);
    if AlreadyIngested(index, fp) then Ingest(index, 0)
    else
      var chunks := Chunks(codec.decode(file.content), chunkSize, chunkOverlap);
      Ingest(AddChunks(index, fp, file.path, chunks), |chunks|)
  }

  /** `ingest_files(paths, chunk_size, chunk_overlap)`: the files in order,
      each checked against the index as the previous ones left it. */
  function IngestFiles(codec: Codec, index: Index, files: seq<SourceFile>, chunkSize: int, chunkOverlap: int): Ingest
    requires chunkSize > chunkOverlap || forall f :: f in files ==> Settled(codec, index, f)
    decreases |files|
  {
    if |files| == 0 then Ingest(index, 0)
    else
      var first := IngestOne(codec, index, files[0], chunkSize, chunkOverlap);
      assert chunkSize > chunkOverlap || forall f :: f in files[1..] ==> Settled(codec, first.index, f) by {
        if chunkSize <= chunkOverlap {
          SettledAddsNothing(codec, index, files[0], chunkSize, chunkOverlap);
          assert forall f :: f in files[1..] ==> f in files;
        }
      }
      var rest := IngestFiles(codec, first.index, files[1..], chunkSize, chunkOverlap);
      Ingest(rest.index, first.added + rest.added)
  }

  /** A chunk id gives back the digest it was made from. */
  lemma ChunkIdFingerprint(fp: HexDigest, i: nat)
    ensures IdFingerprint(ChunkId(fp, i)) == fp
  {
    var id := ChunkId(fp, i);
    assert id[|fp|] == ':';
    var j := IndexOf(id, ':');
    assert id[..j] == fp;
  }

  /** Distinct (digest, position) pairs never share an id. */
  lemma ChunkIdInjective(fp1: HexDigest, i1: nat, fp2: HexDigest, i2: nat)
    requires ChunkId(fp1, i1) == ChunkId(fp2, i2)
    ensures fp1 == fp2 && i1 == i2
  {
    ChunkIdFingerprint(fp1, i1);
    ChunkIdFingerprint(fp2, i2);
    var id := ChunkId(fp1, i1);
    assert id[|fp1| + 1..] == NatToString(i1);
    assert id[|fp2| + 1..] == NatToString(i2);
    NatToStringInjective(i1, i2);
  }

  /** The ids of the entries for one file are `fp:0` … `fp:n-1`. */
  lemma {:induction false} NewEntriesIds(fp: HexDigest, source: string, chunks: seq<string>)
    ensures forall id :: id in NewEntries(fp, source, chunks) ==> exists i :: 0 <= i < |chunks| && id == ChunkId(fp, i)
    decreases |chunks|
  {
    if |chunks| > 0 {
      NewEntriesIds(fp, source, chunks[..|chunks| - 1]);
    }
  }

  /** The last chunk's id is new to the entries of the chunks before it. */
  lemma LastIdIsNew(fp: HexDigest, source: string, chunks: seq<string>)
    requires |chunks| > 0
    ensures ChunkId(fp, |chunks| - 1) !in NewEntries(fp, source, chunks[..|chunks| - 1])
  {
    var n := |chunks| - 1;
    NewEntriesIds(fp, source, chunks[..n]);
    if ChunkId(fp, n) in NewEntries(fp, source, chunks[..n]) {
      var i :| 0 <= i < n && ChunkId(fp, n) == ChunkId(fp, i);
      ChunkIdInjective(fp, n, fp, i);
    }
  }

  /** One entry per chunk. */
  lemma {:induction false} NewEntriesSize(fp: HexDigest, source: string, chunks: seq<string>)
    ensures |NewEntries(fp, source, chunks)| == |chunks|
    decreases |chunks|
  {
    if |chunks| > 0 {
      NewEntriesSize(fp, source, chunks[..|chunks| - 1]);
      LastIdIsNew(fp, source, chunks);
    }
  }

  /** Chunk `i` is stored under `fp:i` with the file's metadata. */
  lemma {:induction false} NewEntriesValues(fp: HexDigest, source: string, chunks: seq<string>, i: nat)
    requires i < |chunks|
    ensures ChunkId(fp, i) in NewEntries(fp, source, chunks)
    ensures NewEntries(fp, source, chunks)[ChunkId(fp, i)] == Entry(chunks[i], source, fp)
    decreases |chunks|
  {
    var n := |chunks| - 1;
    if i < n {
      NewEntriesValues(fp, source, chunks[..n], i);
      if ChunkId(fp, i) == ChunkId(fp, n) {
        ChunkIdInjective(fp, i, fp, n);
      }
      assert chunks[..n][i] == chunks[i];
    }
  }

  /** The entries for one file: one per chunk, under ids `fp:0` … `fp:n-1`
      in order, each holding its chunk and the file's metadata, and no
      other ids. */
  lemma NewEntriesSpec(fp: HexDigest, source: string, chunks: seq<string>)
    ensures var m := NewEntries(fp, source, chunks);
      && |m| == |chunks|
      && (forall i :: 0 <= i < |chunks| ==> ChunkId(fp, i) in m && m[ChunkId(fp, i)] == Entry(chunks[i], source, fp))
      && (forall id :: id in m ==> exists i :: 0 <= i < |chunks| && id == ChunkId(fp, i))
  {
    NewEntriesIds(fp, source, chunks);
    NewEntriesSize(fp, source, chunks);
    forall i | 0 <= i < |chunks|
      ensures ChunkId(fp, i) in NewEntries(fp, source, chunks)
      ensures NewEntries(fp, source, chunks)[ChunkId(fp, i)] == Entry(chunks[i], source, fp)
    {
      NewEntriesValues(fp, source, chunks, i);
    }
  }

  /** The chunks of a file that is not yet ingested land under ids no
      stored chunk uses. */
  lemma FreshIds(index: Index, fp: HexDigest, i: nat)
    requires Wf(index) && !AlreadyIngested(index, fp)
    ensures ChunkId(fp, i) !in index
  {
    var id := ChunkId(fp, i);
    ChunkIdFingerprint(fp, i);
  }

  /** The entries for a file not yet ingested use no id the index uses,
      and carry ids that start with their own fingerprint. */
  lemma IncomingDisjoint(index: Index, fp: HexDigest, source: string, chunks: seq<string>)
    requires Wf(index) && !AlreadyIngested(index, fp)
    ensures var incoming := NewEntries(fp, source, chunks);
      && incoming.Keys !! index.Keys
      && Wf(incoming)
  {
    var incoming := NewEntries(fp, source, chunks);
    NewEntriesIds(fp, source, chunks);
    forall id | id in incoming
      ensures id !in index && IdFingerprint(id) == incoming[id].fingerprint
    {
      var i :| 0 <= i < |chunks| && id == ChunkId(fp, i);
      FreshIds(index, fp, i);
      ChunkIdFingerprint(fp, i);
      NewEntriesValues(fp, source, chunks, i);
    }
  }

  /** Every chunk of a file not yet ingested is stored under its own id,
      unused so far, with the file's metadata, and no other id appears. */
  lemma AddChunksStores(index: Index, fp: HexDigest, source: string, chunks: seq<string>)
    requires Wf(index) && !AlreadyIngested(index, fp)
    ensures var r := AddChunks(index, fp, source, chunks);
      && (forall i :: 0 <= i < |chunks| ==>
            ChunkId(fp, i) !in index && ChunkId(fp, i) in r && r[ChunkId(fp, i)] == Entry(chunks[i], source, fp))
      && (forall id :: id in r ==> id in index || exists i :: 0 <= i < |chunks| && id == ChunkId(fp, i))
  {
    NewEntriesSpec(fp, source, chunks);
    IncomingDisjoint(index, fp, source, chunks);
  }

  /** Adding the chunks of a file not yet ingested grows the index by
      exactly the number of chunks, changes nothing stored, and keeps the
      index well formed. */
  lemma AddChunksGrows(index: Index, fp: HexDigest, source: string, chunks: seq<string>)
    requires Wf(index) && !AlreadyIngested(index, fp)
    ensures var r := AddChunks(index, fp, source, chunks);
      && (forall id :: id in index ==> id in r && r[id] == index[id])
      && |r| == |index| + |chunks|
      && Wf(r)
  {
    var incoming := NewEntries(fp, source, chunks);
    NewEntriesSize(fp, source, chunks);
    IncomingDisjoint(index, fp, source, chunks);
    assert (incoming + index).Keys == incoming.Keys + index.Keys;
  }

  /** One file. A fingerprint already present skips the file: nothing is
      added and the count is 0. Otherwise the chunks of the decoded text are
      added (see `AddChunksStores`) and counted. Either way the index grows
      by exactly the count returned, nothing already stored changes, and
      the index stays well formed. */
  lemma IngestOneSpec(codec: Codec, index: Index, file: SourceFile, chunkSize: int, chunkOverlap: int)
    requires chunkSize > chunkOverlap
    requires Wf(index)
    ensures var r, fp := IngestOne(codec, index, file, chunkSize, chunkOverlap), codec.sha256(file.content);
      var chunks := Chunks(codec.decode(file.content), chunkSize, chunkOverlap);
      && (AlreadyIngested(index, fp) ==> r == Ingest(index, 0))
      && (!AlreadyIngested(index, fp) ==> r == Ingest(AddChunks(index, fp, file.path, chunks), |chunks|))
      && |r.index| == |index| + r.added
      && (forall id :: id in index ==> id in r.index && r.index[id] == index[id])
      && Wf(r.index)
  {
    var fp := codec.sha256(file.content);
    if !AlreadyIngested(index, fp) {
      AddChunksGrows(index, fp, file.path, Chunks(codec.decode(file.content), chunkSize, chunkOverlap));
    }
  }

  /** The whole call: the index stays well formed, keeps every stored
      chunk, and grows by exactly the count `ingest_files` returns. */
  lemma {:induction false} IngestFilesSpec(codec: Codec, index: Index, files: seq<SourceFile>, chunkSize: int, chunkOverlap: int)
    requires chunkSize > chunkOverlap
    requires Wf(index)
    ensures var r := IngestFiles(codec, index, files, chunkSize, chunkOverlap);
      && Wf(r.index)
      && (forall id :: id in index ==> id in r.index && r.index[id] == index[id])
      && |r.index| == |index| + r.added
    decreases |files|
  {
    if |files| > 0 {
      var first := IngestOne(codec, index, files[0], chunkSize, chunkOverlap);
      IngestOneSpec(codec, index, files[0], chunkSize, chunkOverlap);
      IngestFilesSpec(codec, first.index, files[1..], chunkSize, chunkOverlap);
    }
  }

  /** A file leaves nothing more to ingest: its fingerprint is stored, or
      its text is empty and has no chunks. */
  predicate Settled(codec: Codec, index: Index, file: SourceFile) {
    AlreadyIngested(index, codec.sha256(file.content)) || |codec.decode(file.content)| == 0
  }

  /** A settled file adds nothing and leaves the index as it is. */
  lemma SettledAddsNothing(codec: Codec, index: Index, file: SourceFile, chunkSize: int, chunkOverlap: int)
    requires Settled(codec, index, file)
    ensures IngestOne(codec, index, file, chunkSize, chunkOverlap) == Ingest(index, 0)
  {
    var fp := codec.sha256(file.content);
    if !AlreadyIngested(index, fp) {
      assert Chunks(codec.decode(file.content), chunkSize, chunkOverlap) == [];
      assert NewEntries(fp, file.path, []) == map[];
      assert map[] + index == index;
    }
  }

  /** Whatever was ingested stays ingested. */
  lemma SettledStaysSettled(codec: Codec, index: Index, index': Index, file: SourceFile)
    requires forall id :: id in index ==> id in index' && index'[id] == index[id]
    requires Settled(codec, index, file)
    ensures Settled(codec, index', file)
  {
    var fp := codec.sha256(file.content);
    if AlreadyIngested(index, fp) {
      var id :| id in index && index[id].fingerprint == fp;
      assert id in index';
    }
  }

  /** After one file, that file is settled. */
  lemma IngestOneSettles(codec: Codec, index: Index, file: SourceFile, chunkSize: int, chunkOverlap: int)
    requires chunkSize > chunkOverlap
    requires Wf(index)
    ensures Settled(codec, IngestOne(codec, index, file, chunkSize, chunkOverlap).index, file)
  {
    var fp := codec.sha256(file.content);
    var text := codec.decode(file.content);
    if !AlreadyIngested(index, fp) && |text| > 0 {
      var chunks := Chunks(text, chunkSize, chunkOverlap);
      ChunkShape(text, chunkSize, chunkOverlap);
      NewEntriesSpec(fp, file.path, chunks);
      var r := IngestOne(codec, index, file, chunkSize, chunkOverlap).index;
      var id := ChunkId(fp, 0);
      FreshIds(index, fp, 0);
      assert r[id].fingerprint == fp;
    }
  }

  /** After `ingest_files`, every file of the call is settled. */
  lemma {:induction false} IngestFilesSettles(codec: Codec, index: Index, files: seq<SourceFile>, chunkSize: int, chunkOverlap: int)
    requires chunkSize > chunkOverlap
    requires Wf(index)
    ensures forall f :: f in files ==>
      Settled(codec, IngestFiles(codec, index, files, chunkSize, chunkOverlap).index, f)
    decreases |files|
  {
    if |files| > 0 {
      var first := IngestOne(codec, index, files[0], chunkSize, chunkOverlap);
      var r := IngestFiles(codec, first.index, files[1..], chunkSize, chunkOverlap);
      IngestOneSpec(codec, index, files[0], chunkSize, chunkOverlap);
      IngestFilesSettles(codec, first.index, files[1..], chunkSize, chunkOverlap);
      IngestOneSettles(codec, index, files[0], chunkSize, chunkOverlap);
      IngestFilesKeeps(codec, first.index, files[1..], chunkSize, chunkOverlap);
      SettledStaysSettled(codec, first.index, r.index, files[0]);
      assert forall f :: f in files ==> f == files[0] || f in files[1..];
    }
  }

  /** `ingest_files` never changes or removes a stored chunk. */
  lemma {:induction false} IngestFilesKeeps(codec: Codec, index: Index, files: seq<SourceFile>, chunkSize: int, chunkOverlap: int)
    requires chunkSize > chunkOverlap
    ensures var r := IngestFiles(codec, index, files, chunkSize, chunkOverlap);
      forall id :: id in index ==> id in r.index && r.index[id] == index[id]
    decreases |files|
  {
    if |files| > 0 {
      var first := IngestOne(codec, index, files[0], chunkSize, chunkOverlap);
      IngestFilesKeeps(codec, first.index, files[1..], chunkSize, chunkOverlap);
    }
  }

  /** Files that are all settled add nothing and leave the index alone. */
  lemma {:induction false} IngestSettled(codec: Codec, index: Index, files: seq<SourceFile>, chunkSize: int, chunkOverlap: int)
    requires forall f :: f in files ==> Settled(codec, index, f)
    ensures IngestFiles(codec, index, files, chunkSize, chunkOverlap) == Ingest(index, 0)
    decreases |files|
  {
    if |files| > 0 {
      SettledAddsNothing(codec, index, files[0], chunkSize, chunkOverlap);
      assert forall f :: f in files[1..] ==> f in files;
      IngestSettled(codec, index, files[1..], chunkSize, chunkOverlap);
    }
  }

  /** Ingesting the same files a second time returns 0 and changes nothing. */
  lemma IngestTwice(codec: Codec, index: Index, files: seq<SourceFile>, chunkSize: int, chunkOverlap: int)
    requires chunkSize > chunkOverlap
    requires Wf(index)
    ensures var once := IngestFiles(codec, index, files, chunkSize, chunkOverlap);
      IngestFiles(codec, once.index, files, chunkSize, chunkOverlap) == Ingest(once.index, 0)
  {
    var once := IngestFiles(codec, index, files, chunkSize, chunkOverlap);
    IngestFilesSettles(codec, index, files, chunkSize, chunkOverlap);
    IngestSettled(codec, once.index, files, chunkSize, chunkOverlap);
  }

  /** Two files with the same content in one call: the second is checked
      against the index the first left behind, so only the first one's
      chunks are stored and counted. */
  lemma SameContentOnce(codec: Codec, index: Index, a: SourceFile, b: SourceFile, chunkSize: int, chunkOverlap: int)
    requires chunkSize > chunkOverlap
    requires Wf(index)
    requires a.content == b.content
    ensures IngestFiles(codec, index, [a, b], chunkSize, chunkOverlap)
         == IngestOne(codec, index, a, chunkSize, chunkOverlap)
  {
    var first := IngestOne(codec, index, a, chunkSize, chunkOverlap);
    IngestOneSettles(codec, index, a, chunkSize, chunkOverlap);
    SettledAddsNothing(codec, first.index, b, chunkSize, chunkOverlap);
    assert [a, b][1..] == [b];
    assert [b][1..] == [];
    assert IngestFiles(codec, first.index, [b], chunkSize, chunkOverlap) == Ingest(first.index, 0);
  }

  /** A file whose text is empty has no chunks, adds nothing and is not
      recorded: a later call checks its fingerprint again. */
  lemma EmptyTextNotRecorded(codec: Codec, index: Index, file: SourceFile, chunkSize: int, chunkOverlap: int)
    requires |codec.decode(file.content)| == 0
    ensures var r := IngestOne(codec, index, file, chunkSize, chunkOverlap);
      && r == Ingest(index, 0)
      && (AlreadyIngested(r.index, codec.sha256(file.content)) <==> AlreadyIngested(index, codec.sha256(file.content)))
  {
    SettledAddsNothing(codec, index, file, chunkSize, chunkOverlap);
  }

  /** One entry of `root.rglob("*")`. */
  datatype Listed = Listed(path: string, isFile: bool)

  const DefaultExtensions: seq<string> := [".md", ".txt", ".pdf"]

  /** `Path.name`: the text after the last slash. */
  function FileName(path: string): string {
    path[LastIndexOf(path, '/') + 1..]
  }

  /** `PurePath.suffix` of a file name: from its last dot to the end, unless
      that dot opens the name or closes it. */
  function Suffix(name: string): (r: string)
    ensures r == "" || (2 <= |r| < |name| && r[0] == '.' && '.' !in r[1..] && r == name[|name| - |r|..])
    ensures r != "" <==> |name| >= 2 && name[|name| - 1] != '.' && '.' in name[1..]
  {
    var i := LastIndexOf(name, '.');
    if 0 < i < |name| - 1 then name[i..] else ""
  }

  /** The filter of `iter_paths`. */
  predicate Selected(entry: Listed, exts: seq<string>) {
    entry.isFile && Lower(Suffix(FileName(entry.path))) in exts
  }

  /** `iter_paths(root, allowed_exts)` over the enumeration of `rglob`. */
  function IterPaths(listing: seq<Listed>, exts: seq<string>): seq<string>
    decreases |listing|
  {
    if |listing| == 0 then []
    else (if Selected(listing[0], exts) then [listing[0].path] else []) + IterPaths(listing[1..], exts)
  }

  /** Filtering a concatenation filters each part, so the selected paths
      keep their enumeration order. */
  lemma {:induction false} IterPathsAppend(a: seq<Listed>, b: seq<Listed>, exts: seq<string>)
    ensures IterPaths(a + b, exts) == IterPaths(a, exts) + IterPaths(b, exts)
    decreases |a|
  {
    if |a| == 0 {
      assert a + b == b;
    } else {
      assert (a + b)[0] == a[0];
      assert (a + b)[1..] == a[1..] + b;
      IterPathsAppend(a[1..], b, exts);
    }
  }

  /** A path is returned exactly when some listed entry with that path is
      a file with an allowed suffix. */
  lemma {:induction false} IterPathsMembers(listing: seq<Listed>, exts: seq<string>, p: string)
    ensures p in IterPaths(listing, exts) <==>
      exists k :: 0 <= k < |listing| && listing[k].path == p && Selected(listing[k], exts)
    decreases |listing|
  {
    if |listing| > 0 {
      IterPathsMembers(listing[1..], exts, p);
      if exists k :: 0 <= k < |listing[1..]| && listing[1..][k].path == p && Selected(listing[1..][k], exts) {
        var k :| 0 <= k < |listing[1..]| && listing[1..][k].path == p && Selected(listing[1..][k], exts);
        assert listing[k + 1] == listing[1..][k];
      }
      if exists k :: 0 <= k < |listing| && listing[k].path == p && Selected(listing[k], exts) {
        var k :| 0 <= k < |listing| && listing[k].path == p && Selected(listing[k], exts);
        if k > 0 {
          assert listing[1..][k - 1] == listing[k];
        }
      }
    }
  }

  /** `Path.suffix`: a name whose only dot opens it has no suffix, and a
      name with several dots has only the last one. */
  lemma SuffixExamples()
    ensures Suffix(".md") == ""
    ensures Suffix("notes.txt.gz") == ".gz"
  {
    assert LastIndexOf(".md", '.') == 0;
    assert LastIndexOf("notes.txt.gz", '.') == 9;
    assert "notes.txt.gz"[9..] == ".gz";
  }

  /** Extensions are matched case-insensitively, and only files are listed. */
  lemma UpperCaseExtensionSelected()
    ensures Selected(Listed("docs/A.MD", true), DefaultExtensions)
    ensures !Selected(Listed("docs/A.MD", false), DefaultExtensions)
  {
    assert LastIndexOf("docs/A.MD", '/') == 4;
    assert "docs/A.MD"[5..] == "A.MD";
    assert LastIndexOf("A.MD", '.') == 1;
    assert "A.MD"[1..] == ".MD";
    assert Lower(".MD") == ".md";
  }
}

=== FILE: orchestrator.dfy ===
/** `AgentOrchestrator`: plan once, then alternate act and reflect until the
    reflection signals completion or the iteration budget is spent. The
    language model is a sequence of replies consumed in call order; running
    out of replies stands for the model service failing after its retries,
    which ends the run with an exception. */
module Orchestrator {
  import opened Results
  import opened Text
  import opened Tools
  import opened Planning
  import opened Dispatch

  /** One history entry, `{"role": role, "content": content}`. */
  datatype Message = Message(role: string, content: string)

  const Assistant: string := "assistant"

  /** One line of the audit log: `log("plan", …)` or `log("act", …)`. */
  datatype AuditEvent =
    | PlanLogged(goal: string, plan: seq<string>)
    | ActLogged(action: string, result: string, ok: bool)

  datatype AgentState = AgentState(
    goal: string,
    history: seq<Message>,
    iterations: nat,
    maxIters: int,
    lastResult: Option<ToolResult>,
    plan: seq<string>,
    completed: bool)

  /** A run in progress: the state, the audit trail so far and the model
      replies not yet consumed. */
  datatype Machine = Machine(state: AgentState, audit: seq<AuditEvent>, replies: seq<string>)

  /** `_act`'s `k` for the context lookup on the goal. */
  const ContextLimit: nat := 2

  /** What escapes `ModelClient.chat` once its retries are exhausted. */
  const ModelUnavailable: string := "RetryError"

  /** The state `run` starts from. */
  function InitialState(goal: string, maxIters: int): AgentState {
    AgentState(goal, [], 0, maxIters, None, [], false)
  }

  /** The completion test of `_reflect`: "success" or "done", in any case. */
  predicate SignalsCompletion(reflection: string) {
    Mentions(reflection, "success") || Mentions(reflection, "done")
  }

  /** The guard of the conditional edge from reflect back to act. */
  predicate ShouldContinue(s: AgentState) {
    !s.completed && s.iterations < s.maxIters
  }

  /** `_plan`: one model call; its reply is parsed into the plan, appended
      to the history and logged with the goal. */
  function PlanStep(m: Machine): (r: Result<Machine>)
    ensures r.Raised? <==> |m.replies| == 0
    ensures r.Ok? ==>
      var reply, s := m.replies[0], r.value.state;
      && s == m.state.(plan := ParsePlan(reply), history := m.state.history + [Message(Assistant, reply)])
      && r.value.audit == m.audit + [PlanLogged(m.state.goal, ParsePlan(reply))]
      && r.value.replies == m.replies[1..]
  {
    if |m.replies| == 0 then Raised(ModelUnavailable)
    else
      var reply := m.replies[0];
      var plan := ParsePlan(reply);
      var s := m.state.(plan := plan, history := m.state.history + [Message(Assistant, reply)]);
      Ok(Machine(s, m.audit + [PlanLogged(m.state.goal, plan)], m.replies[1..]))
  }

  /** `_act`. With the budget spent it only marks the run completed, without
      calling the model. Otherwise it looks up context for the goal,
      consumes one reply, dispatches it, stores the result, appends the
      reply to the history, counts one iteration and logs the action; a
      context lookup or a dispatch that raises ends the run. */
  function ActStep(tools: Toolbox, m: Machine): (r: Result<Machine>)
    ensures m.state.iterations >= m.state.maxIters ==>
              r == Ok(m.(state := m.state.(completed := true)))
    ensures m.state.iterations < m.state.maxIters ==>
              (r.Ok? <==>
                 && tools.query(m.state.goal, ContextLimit).Ok?
                 && |m.replies| > 0
                 && DispatchTool(tools, m.replies[0]).Ok?)
    ensures m.state.iterations < m.state.maxIters && r.Ok? ==>
      var action, result := m.replies[0], DispatchTool(tools, m.replies[0]).value;
      && r.value.state == m.state.(iterations := m.state.iterations + 1,
                                   history := m.state.history + [Message(Assistant, action)],
                                   lastResult := Some(result))
      && r.value.audit == m.audit + [ActLogged(action, result.output, result.ok)]
      && r.value.replies == m.replies[1..]
  {
    if m.state.iterations >= m.state.maxIters then
      Ok(m.(state := m.state.(completed := true)))
    else if tools.query(m.state.goal, ContextLimit).Raised? then
      Raised(tools.query(m.state.goal, ContextLimit).error)
    else if |m.replies| == 0 then Raised(ModelUnavailable)
    else
      var action := m.replies[0];
      match DispatchTool(tools, action)
      case Raised(e) => Raised(e)
      case Ok(result) =>
        var s := m.state.(iterations := m.state.iterations + 1,
                          history := m.state.history + [Message(Assistant, action)],
                          lastResult := Some(result));
        Ok(Machine(s, m.audit + [ActLogged(action, result.output, result.ok)], m.replies[1..]))
  }

  /** `_reflect`: consumes one reply and appends it to the history. The run
      becomes completed exactly when it already was or the reply signals
      completion; nothing else changes. */
  function ReflectStep(m: Machine): (r: Result<Machine>)
    ensures r.Raised? <==> |m.replies| == 0
    ensures r.Ok? ==>
      var reply := m.replies[0];
      && r.value.state == m.state.(history := m.state.history + [Message(Assistant, reply)],
                                   completed := m.state.completed || SignalsCompletion(reply))
      && r.value.audit == m.audit
      && r.value.replies == m.replies[1..]
  {
    if |m.replies| == 0 then Raised(ModelUnavailable)
    else
      var reply := m.replies[0];
      var done := m.state.completed || SignalsCompletion(reply);
      Ok(m.(state := m.state.(history := m.state.history + [Message(Assistant, reply)], completed := done),
            replies := m.replies[1..]))
  }

  /** act, reflect, and back to act while `ShouldContinue` holds. */
  function Loop(tools: Toolbox, m: Machine): (r: Result<Machine>)
    ensures r.Ok? ==>
      && !ShouldContinue(r.value.state)
      && r.value.state.goal == m.state.goal
      && r.value.state.maxIters == m.state.maxIters
    decreases |m.replies|
  {
    match ActStep(tools, m)
    case Raised(e) => Raised(e)
    case Ok(acted) =>
      match ReflectStep(acted)
      case Raised(e) => Raised(e)
      case Ok(reflected) =>
        if ShouldContinue(reflected.state) then Loop(tools, reflected) else Ok(reflected)
  }

  /** `run(goal, max_iters)`, driven by the model's replies. */
  function Run(tools: Toolbox, goal: string, maxIters: int, replies: seq<string>): (r: Result<Machine>)
    ensures |replies| == 0 ==> r.Raised?
    ensures r.Ok? ==>
      && !ShouldContinue(r.value.state)
      && r.value.state.goal == goal
      && r.value.state.maxIters == maxIters
  {
    match PlanStep(Machine(InitialState(goal, maxIters), [], replies))
    case Raised(e) => Raised(e)
    case Ok(planned) => Loop(tools, planned)
  }

  /** The machine `run` hands to the loop once `plan` has consumed the
      first reply. */
  function Planned(goal: string, maxIters: int, replies: seq<string>): (m: Machine)
    requires |replies| > 0
    ensures PlanStep(Machine(InitialState(goal, maxIters), [], replies)) == Ok(m)
  {
    PlanStep(Machine(InitialState(goal, maxIters), [], replies)).value
  }

  /** `run` is `plan` followed by the loop; it raises at once without a
      reply for the plan. */
  lemma RunUnfold(tools: Toolbox, goal: string, maxIters: int, replies: seq<string>)
    ensures |replies| == 0 ==> Run(tools, goal, maxIters, replies).Raised?
    ensures |replies| > 0 ==> Run(tools, goal, maxIters, replies) == Loop(tools, Planned(goal, maxIters, replies))
  {
  }

  function Contents(history: seq<Message>): seq<string> {
    seq(|history|, i requires 0 <= i < |history| => history[i].content)
  }

  /** History and audit as a plan followed by `iterations` act/reflect pairs
      leave them: one plan entry and two entries per pair; one "plan" event
      and then one "act" event per iteration, naming that iteration's action
      reply. */
  predicate Shape(m: Machine) {
    && |m.state.history| == 1 + 2 * m.state.iterations
    && |m.audit| == 1 + m.state.iterations
    && m.audit[0].PlanLogged?
    && forall k :: 1 <= k < |m.audit| ==>
         m.audit[k].ActLogged? && m.audit[k].action == m.state.history[2 * k - 1].content
  }

  /** The states in which the loop is entered. */
  predicate LoopEntry(m: Machine) {
    ShouldContinue(m.state) && Shape(m)
  }

  /** Between `m` and `f` the history and the audit log were only appended
      to, and the replies consumed are exactly the new history entries, in
      order. */
  predicate Consumes(m: Machine, f: Machine) {
    && m.state.history <= f.state.history
    && m.audit <= f.audit
    && m.replies == Contents(f.state.history[|m.state.history|..]) + f.replies
  }

  /** `f` is a later state of the same run as `m`. */
  predicate Extends(m: Machine, f: Machine) {
    && f.state.goal == m.state.goal
    && f.state.plan == m.state.plan
    && f.state.maxIters == m.state.maxIters
    && Consumes(m, f)
  }

  lemma ConsumesTransitive(a: Machine, b: Machine, c: Machine)
    requires Consumes(a, b) && Consumes(b, c)
    ensures Consumes(a, c)
  {
    var ha, hb, hc := a.state.history, b.state.history, c.state.history;
    assert hc[|ha|..] == hb[|ha|..] + hc[|hb|..];
    assert Contents(hc[|ha|..]) == Contents(hb[|ha|..]) + Contents(hc[|hb|..]);
  }

  /** One act/reflect pair from a loop entry state. */
  lemma PairStep(tools: Toolbox, m: Machine)
    requires LoopEntry(m)
    requires ActStep(tools, m).Ok? && ReflectStep(ActStep(tools, m).value).Ok?
    ensures var f := ReflectStep(ActStep(tools, m).value).value;
      && Shape(f) && Extends(m, f)
      && f.state.iterations == m.state.iterations + 1
      && f.replies == m.replies[2..]
      && f.state.completed == SignalsCompletion(m.replies[1])
  {
    var acted := ActStep(tools, m).value;
    var f := ReflectStep(acted).value;
    var n := |m.state.history|;
    assert f.state.history == m.state.history + [Message(Assistant, m.replies[0]), Message(Assistant, m.replies[1])];
    assert f.state.history[n..] == [Message(Assistant, m.replies[0]), Message(Assistant, m.replies[1])];
    assert m.replies == [m.replies[0], m.replies[1]] + m.replies[2..];
    assert f.audit == m.audit + [f.audit[|m.audit|]];
    forall k | 1 <= k < |f.audit|
      ensures f.audit[k].ActLogged? && f.audit[k].action == f.state.history[2 * k - 1].content
    {
      if k < |m.audit| {
        assert f.audit[k] == m.audit[k];
        assert f.state.history[2 * k - 1] == m.state.history[2 * k - 1];
      }
    }
  }

  /** Every normal end of the loop entered from a loop entry state: at least
      one more iteration, never more than the budget, a history of one
      plan entry and two entries per iteration, one audit event per
      iteration after the plan's, and the run stopped because it was
      completed or the budget was spent. */
  lemma {:induction false} LoopEnds(tools: Toolbox, m: Machine)
    requires LoopEntry(m)
    ensures Loop(tools, m).Ok? ==>
      var f := Loop(tools, m).value;
      && Shape(f) && Extends(m, f)
      && m.state.iterations < f.state.iterations <= f.state.maxIters
      && (f.state.completed || f.state.iterations == f.state.maxIters)
    decreases |m.replies|
  {
    if Loop(tools, m).Ok? {
      var acted := ActStep(tools, m).value;
      var reflected := ReflectStep(acted).value;
      PairStep(tools, m);
      if ShouldContinue(reflected.state) {
        LoopEnds(tools, reflected);
        ConsumesTransitive(m, reflected, Loop(tools, reflected).value);
      }
    }
  }

  /** Enough replies, a context lookup that does not raise, and no action
      whose dispatch raises make the loop return normally. Actions are the
      replies at even positions, counted from the loop's first action;
      reflections are never dispatched. */
  lemma {:induction false} LoopReturns(tools: Toolbox, m: Machine)
    requires LoopEntry(m)
    requires |m.replies| >= 2 * (m.state.maxIters - m.state.iterations)
    requires tools.query(m.state.goal, ContextLimit).Ok?
    requires forall k :: 0 <= k && 2 * k < |m.replies| ==> DispatchTool(tools, m.replies[2 * k]).Ok?
    ensures Loop(tools, m).Ok?
    decreases |m.replies|
  {
    assert DispatchTool(tools, m.replies[2 * 0]).Ok?;
    var acted := ActStep(tools, m).value;
    var reflected := ReflectStep(acted).value;
    PairStep(tools, m);
    if ShouldContinue(reflected.state) {
      forall k | 0 <= k && 2 * k < |reflected.replies|
        ensures DispatchTool(tools, reflected.replies[2 * k]).Ok?
      {
        assert reflected.replies[2 * k] == m.replies[2 * (k + 1)];
      }
      LoopReturns(tools, reflected);
    }
  }

  /** Without a completion signal in any reflection, the loop runs to the
      budget and ends not completed. Reflections are the replies at odd
      positions, counted from the loop's first action. */
  lemma {:induction false} LoopWithoutSignal(tools: Toolbox, m: Machine)
    requires LoopEntry(m)
    requires forall k :: 0 <= k && 2 * k + 1 < |m.replies| ==> !SignalsCompletion(m.replies[2 * k + 1])
    ensures Loop(tools, m).Ok? ==>
      Loop(tools, m).value.state.iterations == m.state.maxIters && !Loop(tools, m).value.state.completed
    decreases |m.replies|
  {
    if Loop(tools, m).Ok? {
      var acted := ActStep(tools, m).value;
      var reflected := ReflectStep(acted).value;
      PairStep(tools, m);
      assert !SignalsCompletion(m.replies[2 * 0 + 1]);
      if ShouldContinue(reflected.state) {
        forall k | 0 <= k && 2 * k + 1 < |reflected.replies|
          ensures !SignalsCompletion(reflected.replies[2 * k + 1])
        {
          assert reflected.replies[2 * k + 1] == m.replies[2 * (k + 1) + 1];
        }
        LoopWithoutSignal(tools, reflected);
      }
    }
  }

  /** `plan` consumes one reply into the history. */
  lemma PlanConsumes(m: Machine)
    requires |m.replies| > 0
    ensures Consumes(m, PlanStep(m).value)
  {
    var h := PlanStep(m).value.state.history;
    var n := |m.state.history|;
    assert h[n..] == [Message(Assistant, m.replies[0])];
    assert Contents(h[n..]) == [m.replies[0]];
    assert m.replies == [m.replies[0]] + m.replies[1..];
  }

  /** A run with a budget of at least one that returns normally: the
      history is exactly the replies consumed, in order, starting with the
      plan text; it holds one plan entry and two per iteration; the audit
      log is one "plan" event then one "act" event per iteration; between 1
      and `maxIters` iterations ran, and the run ended completed or out of
      budget. */
  lemma RunEnds(tools: Toolbox, goal: string, maxIters: int, replies: seq<string>)
    requires maxIters >= 1
    ensures Run(tools, goal, maxIters, replies).Ok? ==>
      var f := Run(tools, goal, maxIters, replies).value;
      && Shape(f)
      && 1 <= f.state.iterations <= maxIters
      && (f.state.completed || f.state.iterations == maxIters)
      && f.state.goal == goal && f.state.maxIters == maxIters
      && f.state.plan == ParsePlan(replies[0])
      && f.state.history[0] == Message(Assistant, replies[0])
      && replies == Contents(f.state.history) + f.replies
  {
    RunUnfold(tools, goal, maxIters, replies);
    if Run(tools, goal, maxIters, replies).Ok? {
      var start := Machine(InitialState(goal, maxIters), [], replies);
      var planned := Planned(goal, maxIters, replies);
      PlanConsumes(start);
      LoopEnds(tools, planned);
      var f := Loop(tools, planned).value;
      ConsumesTransitive(start, planned, f);
      assert f.state.history[0..] == f.state.history;
    }
  }

  /** With a budget of at least one, enough replies, a context lookup that
      does not raise and no action whose dispatch raises, `run` returns.
      Actions are the replies at positions 1, 3, 5, … */
  lemma RunReturns(tools: Toolbox, goal: string, maxIters: int, replies: seq<string>)
    requires maxIters >= 1
    requires |replies| >= 1 + 2 * maxIters
    requires tools.query(goal, ContextLimit).Ok?
    requires forall k :: 0 <= k && 2 * k + 1 < |replies| ==> DispatchTool(tools, replies[2 * k + 1]).Ok?
    ensures Run(tools, goal, maxIters, replies).Ok?
  {
    RunUnfold(tools, goal, maxIters, replies);
    var planned := Planned(goal, maxIters, replies);
    assert planned.replies == replies[1..];
    assert LoopEntry(planned);
    forall k | 0 <= k && 2 * k < |planned.replies|
      ensures DispatchTool(tools, planned.replies[2 * k]).Ok?
    {
      assert planned.replies[2 * k] == replies[2 * k + 1];
    }
    LoopReturns(tools, planned);
  }

  /** No reflection ever says "success" or "done": the run performs exactly
      `maxIters` act/reflect pairs and ends not completed. Reflections are
      the replies at positions 2, 4, 6, … */
  lemma RunExhaustsBudget(tools: Toolbox, goal: string, maxIters: int, replies: seq<string>)
    requires maxIters >= 1
    requires forall k :: 1 <= k && 2 * k < |replies| ==> !SignalsCompletion(replies[2 * k])
    ensures Run(tools, goal, maxIters, replies).Ok? ==>
      var f := Run(tools, goal, maxIters, replies).value;
      f.state.iterations == maxIters && !f.state.completed && |f.state.history| == 1 + 2 * maxIters
  {
    RunUnfold(tools, goal, maxIters, replies);
    if Run(tools, goal, maxIters, replies).Ok? {
      var planned := Planned(goal, maxIters, replies);
      forall k | 0 <= k && 2 * k + 1 < |planned.replies|
        ensures !SignalsCompletion(planned.replies[2 * k + 1])
      {
        assert planned.replies[2 * k + 1] == replies[2 * (k + 1)];
      }
      LoopWithoutSignal(tools, planned);
      LoopEnds(tools, planned);
    }
  }

  /** A first reflection that says "done" (or "success") ends the run after
      exactly one act/reflect pair, completed; it returns exactly when the
      context lookup and that first action's dispatch do not raise. */
  lemma RunStopsAtFirstSignal(tools: Toolbox, goal: string, maxIters: int, replies: seq<string>)
    requires maxIters >= 1
    requires |replies| >= 3 && SignalsCompletion(replies[2])
    ensures Run(tools, goal, maxIters, replies).Ok? <==>
              tools.query(goal, ContextLimit).Ok? && DispatchTool(tools, replies[1]).Ok?
    ensures Run(tools, goal, maxIters, replies).Ok? ==>
      var f := Run(tools, goal, maxIters, replies).value;
      f.state.iterations == 1 && f.state.completed && |f.state.history| == 3
  {
    var planned := PlanStep(Machine(InitialState(goal, maxIters), [], replies)).value;
    assert planned.replies[0] == replies[1] && planned.replies[1] == replies[2];
    if tools.query(goal, ContextLimit).Ok? && DispatchTool(tools, replies[1]).Ok? {
      var acted := ActStep(tools, planned).value;
      assert acted.replies[0] == replies[2];
    }
  }

  /** A budget of zero or less still runs `plan`, one `act` that only marks
      the run completed, and one `reflect`: no iteration, no "act" event,
      and two history entries. */
  lemma RunWithoutBudget(tools: Toolbox, goal: string, maxIters: int, replies: seq<string>)
    requires maxIters <= 0
    ensures Run(tools, goal, maxIters, replies).Ok? <==> |replies| >= 2
    ensures Run(tools, goal, maxIters, replies).Ok? ==>
      var f := Run(tools, goal, maxIters, replies).value;
      && f.state.iterations == 0 && f.state.completed
      && f.state.history == [Message(Assistant, replies[0]), Message(Assistant, replies[1])]
      && f.audit == [PlanLogged(goal, ParsePlan(replies[0]))]
  {
  }
}

=== FILE: planning.dfy ===
/** The plan parser of `AgentOrchestrator._plan`: one entry per line of the
    model's reply that is not blank, with list markers ('-' and ' ') cut
    from both ends. */
module Planning {
  import opened Text

  predicate IsMarker(c: char) {
    c == '-' || c == ' '
  }

  /** `line.strip("- ")`. */
  function StripMarkers(line: string): string {
    Strip(line, IsMarker)
  }

  /** The filter and map of the comprehension, over a list of lines. */
  function PlanEntries(lines: seq<string>): (r: seq<string>)
    ensures |r| <= |lines|
  {
    if |lines| == 0 then []
    else
      var rest := PlanEntries(lines[1..]);
      if StripSpace(lines[0]) == "" then rest else [StripMarkers(lines[0])] + rest
  }

  /** `[line.strip("- ") for line in planText.split("\n") if line.strip()]`. */
  function ParsePlan(planText: string): seq<string> {
    PlanEntries(Split(planText, '\n'))
  }

  /** Filtering line lists commutes with concatenation. */
  lemma {:induction false} PlanEntriesAppend(a: seq<string>, b: seq<string>)
    ensures PlanEntries(a + b) == PlanEntries(a) + PlanEntries(b)
  {
    if |a| > 0 {
      assert (a + b)[0] == a[0];
      assert (a + b)[1..] == a[1..] + b;
      PlanEntriesAppend(a[1..], b);
      if StripSpace(a[0]) == "" {
        assert PlanEntries(a + b) == PlanEntries(a[1..] + b);
      } else {
        assert PlanEntries(a + b) == [StripMarkers(a[0])] + PlanEntries(a[1..] + b);
      }
    } else {
      assert a + b == b;
    }
  }

  /** The plan of two texts joined by a line break is the plan of the first
      followed by the plan of the second: entries keep the order of their
      lines. */
  lemma ParsePlanAppend(a: string, b: string)
    ensures ParsePlan(a + "\n" + b) == ParsePlan(a) + ParsePlan(b)
  {
    assert a + "\n" + b == a + ['\n'] + b;
    SplitAppend(a, b, '\n');
    PlanEntriesAppend(Split(a, '\n'), Split(b, '\n'));
  }

  /** A single line gives no entry when it is blank and otherwise exactly
      one, stripped of list markers. Together with `ParsePlanAppend` this
      determines the plan of every text. */
  lemma ParsePlanLine(line: string)
    requires '\n' !in line
    ensures StripSpace(line) == "" ==> ParsePlan(line) == []
    ensures StripSpace(line) != "" ==> ParsePlan(line) == [StripMarkers(line)]
  {
    SplitWithoutSeparator(line, '\n');
  }

  /** Neither end of `entry` is a list marker. */
  predicate Trimmed(entry: string) {
    |entry| > 0 ==> !IsMarker(entry[0]) && !IsMarker(entry[|entry| - 1])
  }

  /** No plan entry starts or ends with a list marker. */
  lemma {:induction false} PlanEntriesTrimmed(lines: seq<string>)
    ensures forall k :: 0 <= k < |PlanEntries(lines)| ==> Trimmed(PlanEntries(lines)[k])
  {
    if |lines| > 0 {
      var rest := PlanEntries(lines[1..]);
      PlanEntriesTrimmed(lines[1..]);
      if StripSpace(lines[0]) != "" {
        var r := PlanEntries(lines);
        assert r == [StripMarkers(lines[0])] + rest;
        StripEnds(lines[0], IsMarker);
        forall k | 0 <= k < |r|
          ensures Trimmed(r[k])
        {
          if k > 0 {
            assert r[k] == rest[k - 1];
          }
        }
      }
    }
  }

  /** A blank reply yields an empty plan, which the run tolerates. */
  lemma EmptyReplyEmptyPlan()
    ensures ParsePlan("") == []
    ensures ParsePlan("  \n\t") == []
  {
    assert "  \n\t" == "  " + ['\n'] + "\t";
    SplitAppend("  ", "\t", '\n');
    SplitWithoutSeparator("  ", '\n');
    SplitWithoutSeparator("\t", '\n');
    assert StripSpace("  ") == "";
    assert StripSpace("\t") == "";
  }

  /** A line of dashes is not blank, so it gives an entry, and that entry is
      empty. */
  lemma DashLineGivesEmptyEntry()
    ensures ParsePlan("---") == [""]
  {
    var dashes := "---";
    ParsePlanLine(dashes);
    assert !IsSpace(dashes[0]);
  }
}

=== FILE: results.dfy ===
/** Failure-carrying wrappers shared by every module of the model. */
module Results {

  /** Python's `X | None`. */
  datatype Option<+T> = None | Some(value: T)

  /** A Python call that either returns a value or lets an exception escape;
      `error` names the exception class the source does not catch. */
  datatype Result<+T> = Ok(value: T) | Raised(error: string)
}

=== FILE: scoped_files.dfy ===
/** `LocalFileTool`: reads and writes confined to a root directory. Paths are
    absolute segment lists after resolution (`[]` is `/`), and the
    filesystem is a map from file paths to contents plus a set of
    directories. Text is UTF-8 on a POSIX system: writing stores the text
    as given, and reading decodes strictly and translates line endings. */
module ScopedFiles {
  import opened Results
  import opened Text
  import opened Tools

  type Path = seq<string>

  /** A segment that can survive resolution. */
  predicate PlainSegment(seg: string) {
    seg != "" && seg != "." && seg != ".." && '/' !in seg
  }

  /** A path in the form `Path.resolve` produces. */
  predicate Resolved(p: Path) {
    forall k :: 0 <= k < |p| ==> PlainSegment(p[k])
  }

  /** Lexical resolution of `segs` from `base`: empty and `.` segments
      vanish, `..` drops the last segment (and stays at `/`), any other
      segment is appended. */
  function Walk(base: Path, segs: seq<string>): (r: Path)
    requires forall k :: 0 <= k < |segs| ==> '/' !in segs[k]
    ensures Resolved(base) ==> Resolved(r)
    decreases |segs|
  {
    if |segs| == 0 then base
    else
      var seg := segs[0];
      var next :=
        if seg == "" || seg == "." then base
        else if seg == ".." then (if |base| == 0 then base else base[..|base| - 1])
        else base + [seg];
      Walk(next, segs[1..])
  }

  /** The segments a walk without `..` keeps: all but the empty and `.`
      ones, in order. */
  function Kept(segs: seq<string>): seq<string>
    decreases |segs|
  {
    if |segs| == 0 then []
    else (if segs[0] == "" || segs[0] == "." then [] else [segs[0]]) + Kept(segs[1..])
  }

  /** Without `..`, resolution appends the kept segments to the base. */
  lemma {:induction false} WalkWithoutParent(base: Path, segs: seq<string>)
    requires forall k :: 0 <= k < |segs| ==> '/' !in segs[k] && segs[k] != ".."
    ensures Walk(base, segs) == base + Kept(segs)
    decreases |segs|
  {
    if |segs| > 0 {
      var next := if segs[0] == "" || segs[0] == "." then base else base + [segs[0]];
      WalkWithoutParent(next, segs[1..]);
      assert next + Kept(segs[1..]) == base + Kept(segs);
    }
  }

  /** Resolving `a` then `b` is resolving `a + b`: each segment acts on the
      path the earlier ones left. */
  lemma {:induction false} WalkAppend(base: Path, a: seq<string>, b: seq<string>)
    requires forall k :: 0 <= k < |a| ==> '/' !in a[k]
    requires forall k :: 0 <= k < |b| ==> '/' !in b[k]
    ensures forall k :: 0 <= k < |a + b| ==> '/' !in (a + b)[k]
    ensures Walk(base, a + b) == Walk(Walk(base, a), b)
    decreases |a|
  {
    assert forall k :: 0 <= k < |a + b| ==> (a + b)[k] == if k < |a| then a[k] else b[k - |a|];
    if |a| == 0 {
      assert a + b == b;
    } else {
      var seg := a[0];
      var next :=
        if seg == "" || seg == "." then base
        else if seg == ".." then (if |base| == 0 then base else base[..|base| - 1])
        else base + [seg];
      assert (a + b)[0] == seg;
      assert (a + b)[1..] == a[1..] + b;
      assert Walk(base, a + b) == Walk(next, a[1..] + b);
      assert Walk(base, a) == Walk(next, a[1..]);
      WalkAppend(next, a[1..], b);
    }
  }

  /** `..` undoes the plain segment before it, and at `/` it stays at `/`. */
  lemma ParentUndoesSegment(base: Path, seg: string)
    requires PlainSegment(seg)
    ensures Walk(base, [seg, ".."]) == base
    ensures Walk([], [".."]) == []
  {
    var up := base + [seg];
    assert [seg, ".."][1..] == [".."];
    assert Walk(base, [seg, ".."]) == Walk(up, [".."]);
    assert up[..|up| - 1] == base;
    assert [".."][1..] == [];
    assert Walk(up, [".."]) == Walk(base, []);
  }

  /** `(root / arg).resolve()` without symbolic links: an absolute `arg`
      replaces the root altogether. */
  function ResolveUnder(root: Path, arg: string): (r: Path)
    ensures Resolved(root) || (|arg| > 0 && arg[0] == '/') ==> Resolved(r)
  {
    var segs := Split(arg, '/');
    SplitPieces(arg, '/');
    if |arg| > 0 && arg[0] == '/' then Walk([], segs) else Walk(root, segs)
  }

  /** The refusal test of `read` and `write`: the target is neither one of
      the root's descendants (`root in target.parents`) nor the root itself. */
  predicate Denied(root: Path, target: Path) {
    !(root < target) && root != target
  }

  /** `str(path)`. */
  function PathString(p: Path): string {
    if |p| == 0 then "/" else JoinAbsolute(p)
  }

  function JoinAbsolute(p: Path): string {
    if |p| == 0 then "" else "/" + p[0] + JoinAbsolute(p[1..])
  }

  /** What a file holds, as `read_text` sees it: UTF-8 text, or bytes that
      do not decode (a PDF, say), on which `read_text` raises. */
  datatype Content = Utf8(text: string) | Undecodable

  datatype Fs = Fs(files: map<Path, Content>, dirs: set<Path>)

  /** The universal-newline translation of text-mode reading: `"\r\n"` and
      a lone `"\r"` both become `"\n"`. */
  function ReadNewlines(s: string): string
    decreases |s|
  {
    if |s| == 0 then ""
    else if s[0] == '\r' then "\n" + ReadNewlines(if |s| > 1 && s[1] == '\n' then s[2..] else s[1..])
    else [s[0]] + ReadNewlines(s[1..])
  }

  /** Text without carriage returns reads back unchanged. */
  lemma {:induction false} ReadNewlinesKeepsPlainText(s: string)
    requires '\r' !in s
    ensures ReadNewlines(s) == s
    decreases |s|
  {
    if |s| > 0 {
      assert s[0] != '\r';
      ReadNewlinesKeepsPlainText(s[1..]);
    }
  }

  /** Whatever a file holds, the text read from it has no carriage return,
      so reading twice translates nothing more. */
  lemma {:induction false} ReadNewlinesRemovesReturns(s: string)
    ensures '\r' !in ReadNewlines(s)
    ensures ReadNewlines(ReadNewlines(s)) == ReadNewlines(s)
    decreases |s|
  {
    if |s| > 0 {
      if s[0] == '\r' {
        ReadNewlinesRemovesReturns(if |s| > 1 && s[1] == '\n' then s[2..] else s[1..]);
      } else {
        ReadNewlinesRemovesReturns(s[1..]);
      }
    }
    ReadNewlinesKeepsPlainText(ReadNewlines(s));
  }

  /** Writing `"x\r\ny"` and reading it back gives `"x\ny"`. */
  lemma CrLfReadsAsNewline()
    ensures ReadNewlines("x\r\ny") == "x\ny"
  {
    assert ReadNewlines("y") == "y";
    assert "x\r\ny"[1..] == "\r\ny";
    assert "\r\ny"[2..] == "y";
  }

  /** A filesystem shaped like a real one: `/` is a directory, nothing is
      both a file and a directory, and every ancestor of a file or a
      directory is a directory. */
  predicate Wf(fs: Fs) {
    && [] in fs.dirs
    && (forall p :: p in fs.files ==> p !in fs.dirs)
    && (forall p, k :: p in fs.files && 0 <= k < |p| ==> p[..k] in fs.dirs)
    && (forall p, k :: p in fs.dirs && 0 <= k < |p| ==> p[..k] in fs.dirs)
  }

  const AccessDenied: ToolResult := Failure("Access denied")
  const NotFound: ToolResult := Failure("Not found")

  /** `LocalFileTool.read`. Containment is decided before the filesystem is
      consulted; an in-root path that does not exist is "Not found"; reading
      a directory or a file that is not UTF-8 raises, as `read_text` does. */
  function Read(root: Path, fs: Fs, arg: string): (r: Result<ToolResult>)
    ensures var target := ResolveUnder(root, arg);
      && (r == Ok(AccessDenied) <==> Denied(root, target))
      && (r == Ok(NotFound) <==> !Denied(root, target) && target !in fs.files && target !in fs.dirs)
      && (r.Raised? <==>
            && !Denied(root, target)
            && (if target in fs.files then fs.files[target].Undecodable? else target in fs.dirs))
      && (r.Ok? && r.value.ok <==> !Denied(root, target) && target in fs.files && fs.files[target].Utf8?)
      && (r.Ok? && r.value.ok ==>
            r.value.output == ReadNewlines(fs.files[target].text) && r.value.metadata == None)
  {
    var target := ResolveUnder(root, arg);
    if Denied(root, target) then Ok(AccessDenied)
    else if target !in fs.files && target !in fs.dirs then Ok(NotFound)
    else if target !in fs.files then Raised("IsADirectoryError")
    else match fs.files[target]
      case Undecodable => Raised("UnicodeDecodeError")
      case Utf8(text) => Ok(ToolResult(ReadNewlines(text), true, None))
  }

  /** The new state of the filesystem after a write, with the result. */
  datatype Written = Written(result: ToolResult, fs: Fs)

  /** The proper ancestors of `p`, which `mkdir(parents=True)` creates for
      `p`'s parent. */
  function Ancestors(p: Path): set<Path> {
    set k | 0 <= k < |p| :: p[..k]
  }

  /** Some proper ancestor of `p` is a file. */
  predicate UnderFile(fs: Fs, p: Path) {
    exists k :: 0 <= k < |p| && p[..k] in fs.files
  }

  /** `LocalFileTool.write`. A refused path leaves the filesystem alone.
      Otherwise the parent directories are created (raising when one of them
      is a file) and the target is overwritten (raising when it is a
      directory); success reports "written" with the resolved path. */
  function Write(root: Path, fs: Fs, arg: string, content: string): (r: Result<Written>)
    ensures var target := ResolveUnder(root, arg);
      && (Denied(root, target) ==> r == Ok(Written(AccessDenied, fs)))
      && (r.Raised? <==> !Denied(root, target) && (UnderFile(fs, target) || target in fs.dirs))
      && (r.Ok? && !Denied(root, target) ==>
            && r.value.result == ToolResult("written", true, Some(map["path" := Text(PathString(target))]))
            && r.value.fs.files == fs.files[target := Utf8(content)]
            && r.value.fs.dirs == fs.dirs + Ancestors(target))
  {
    var target := ResolveUnder(root, arg);
    if Denied(root, target) then Ok(Written(AccessDenied, fs))
    else if UnderFile(fs, target) then
      var parent := if |target| == 0 then target else target[..|target| - 1];
      Raised(if parent in fs.files then "FileExistsError" else "NotADirectoryError")
    else if target in fs.dirs then Raised("IsADirectoryError")
    else
      var fs' := Fs(fs.files[target := Utf8(content)], fs.dirs + Ancestors(target));
      Ok(Written(ToolResult("written", true, Some(map["path" := Text(PathString(target))])), fs'))
  }

  /** Containment is exactly "the root is a prefix of the resolved target". */
  lemma DeniedIsNotPrefix(root: Path, target: Path)
    ensures Denied(root, target) <==> !(root <= target)
  {
  }

  /** A refused path gets the same answer whatever the filesystem holds:
      reads and writes outside the root never look at it. */
  lemma DeniedIgnoresFilesystem(root: Path, fs1: Fs, fs2: Fs, arg: string, content: string)
    requires Denied(root, ResolveUnder(root, arg))
    ensures Read(root, fs1, arg) == Read(root, fs2, arg) == Ok(AccessDenied)
    ensures Write(root, fs1, arg, content).Ok? && Write(root, fs1, arg, content).value.result == AccessDenied
    ensures Write(root, fs1, arg, content).value.fs == fs1
  {
  }

  /** A relative argument without `..` segments cannot leave the root. */
  lemma {:induction false} WalkStaysBelow(base: Path, segs: seq<string>)
    requires forall k :: 0 <= k < |segs| ==> '/' !in segs[k] && segs[k] != ".."
    ensures base <= Walk(base, segs)
    decreases |segs|
  {
    if |segs| > 0 {
      var seg := segs[0];
      var next := if seg == "" || seg == "." then base else base + [seg];
      WalkStaysBelow(next, segs[1..]);
    }
  }

  lemma RelativeWithoutParentIsInside(root: Path, arg: string)
    requires |arg| == 0 || arg[0] != '/'
    requires forall k :: 0 <= k < |Split(arg, '/')| ==> Split(arg, '/')[k] != ".."
    ensures !Denied(root, ResolveUnder(root, arg))
  {
    SplitPieces(arg, '/');
    WalkStaysBelow(root, Split(arg, '/'));
  }

  /** `"../" + name` resolves to a sibling of the root, which is refused
      unless the sibling is the root itself; this is the escape
      `test_local_file_tool_respects_root` exercises with "../evil.txt". */
  lemma ParentEscapeDenied(root: Path, fs: Fs, name: string, content: string)
    requires Resolved(root) && |root| > 0
    requires PlainSegment(name) && name != root[|root| - 1]
    ensures Read(root, fs, "../" + name) == Ok(AccessDenied)
    ensures Write(root, fs, "../" + name, content) == Ok(Written(AccessDenied, fs))
  {
    var arg := "../" + name;
    assert arg == ".." + ['/'] + name;
    SplitAppend("..", name, '/');
    SplitWithoutSeparator("..", '/');
    SplitWithoutSeparator(name, '/');
    assert Split(arg, '/') == ["..", name];
    var up := root[..|root| - 1];
    assert ["..", name][1..] == [name];
    assert Walk(root, ["..", name]) == Walk(up, [name]);
    assert Walk(up, [name]) == Walk(up + [name], []);
    var target := ResolveUnder(root, arg);
    assert target == up + [name];
    assert target[|root| - 1] != root[|root| - 1];
  }

  /** `test_local_file_tool_respects_root`: with a root below `/` not named
      "evil.txt", reading "../evil.txt" is refused. */
  lemma EvilTxtDenied(root: Path, fs: Fs)
    requires Resolved(root) && |root| > 0 && root[|root| - 1] != "evil.txt"
    ensures Read(root, fs, "../evil.txt") == Ok(AccessDenied)
  {
    assert "../evil.txt" == "../" + "evil.txt";
    assert PlainSegment("evil.txt");
    ParentEscapeDenied(root, fs, "evil.txt", "");
  }

  /** A successful in-root write is visible to the next read of the same
      argument: the written content with its line endings translated. */
  lemma WriteThenRead(root: Path, fs: Fs, arg: string, content: string)
    requires Write(root, fs, arg, content).Ok?
    requires !Denied(root, ResolveUnder(root, arg))
    ensures Read(root, Write(root, fs, arg, content).value.fs, arg) == Ok(ToolResult(ReadNewlines(content), true, None))
  {
    var target := ResolveUnder(root, arg);
    var fs' := Write(root, fs, arg, content).value.fs;
    assert target in fs'.files;
  }

  /** Content without carriage returns, such as the "hello" of
      `test_local_file_tool_respects_root`, reads back exactly. */
  lemma WriteThenReadExactly(root: Path, fs: Fs, arg: string, content: string)
    requires Write(root, fs, arg, content).Ok?
    requires !Denied(root, ResolveUnder(root, arg))
    requires '\r' !in content
    ensures Read(root, Write(root, fs, arg, content).value.fs, arg) == Ok(ToolResult(content, true, None))
  {
    WriteThenRead(root, fs, arg, content);
    ReadNewlinesKeepsPlainText(content);
  }

  /** A write changes no file other than its target, and only adds
      directories (the target's ancestors). */
  lemma WriteFrame(root: Path, fs: Fs, arg: string, content: string, other: Path)
    requires Write(root, fs, arg, content).Ok?
    requires other != ResolveUnder(root, arg)
    ensures var fs' := Write(root, fs, arg, content).value.fs;
      && (other in fs'.files <==> other in fs.files)
      && (other in fs.files ==> fs'.files[other] == fs.files[other])
      && fs.dirs <= fs'.dirs
  {
  }

  /** Every ancestor of an ancestor is an ancestor. */
  lemma AncestorsClosed(p: Path, q: Path, k: nat)
    requires q in Ancestors(p) && k < |q|
    ensures q[..k] in Ancestors(p)
  {
    var j :| 0 <= j < |p| && p[..j] == q;
    assert q[..k] == p[..k];
  }

  /** Writes keep the filesystem well formed. */
  lemma WritePreservesWf(root: Path, fs: Fs, arg: string, content: string)
    requires Wf(fs)
    requires Write(root, fs, arg, content).Ok?
    ensures Wf(Write(root, fs, arg, content).value.fs)
  {
    var target := ResolveUnder(root, arg);
    var fs' := Write(root, fs, arg, content).value.fs;
    if !Denied(root, target) {
      forall p | p in fs'.files
        ensures p !in fs'.dirs
      {
        if p != target {
          assert p in fs.files;
        }
      }
      forall p, k | p in fs'.files && 0 <= k < |p|
        ensures p[..k] in fs'.dirs
      {
        if p == target {
          assert p[..k] in Ancestors(target);
        }
      }
      forall p, k | p in fs'.dirs && 0 <= k < |p|
        ensures p[..k] in fs'.dirs
      {
        if p in Ancestors(target) {
          AncestorsClosed(target, p, k);
        }
      }
    }
  }
}

=== FILE: text.dfy ===
/** The string operations of Python's `str` that the orchestrator, the file
    tool and the ingester rely on: `lower`, `in`, `strip`, `split`, `rfind`
    and `str(int)`. */
module Text {

  /** ASCII case mapping, the part of `str.lower` this model covers. */
  function LowerChar(c: char): char {
    if 'A' <= c <= 'Z' then (c as int + 32) as char else c
  }

  function Lower(s: string): string {
    seq(|s|, i requires 0 <= i < |s| => LowerChar(s[i]))
  }

  /** `sub in s` for strings. */
  predicate Contains(s: string, sub: string) {
    exists i :: 0 <= i <= |s| - |sub| && sub <= s[i..]
  }

  /** `str.isspace` for one character: the code points Python strips when
      `strip` is called without an argument. */
  predicate IsSpace(c: char) {
    var n := c as int;
    || 9 <= n <= 13 || 28 <= n <= 32 || n == 0x85 || n == 0xA0 || n == 0x1680
    || 0x2000 <= n <= 0x200A || n == 0x2028 || n == 0x2029 || n == 0x202F
    || n == 0x205F || n == 0x3000
  }

  /** `str.lstrip(chars)`, with the character set given as a predicate. */
  function TrimStart(s: string, drop: char -> bool): string {
    if |s| > 0 && drop(s[0]) then TrimStart(s[1..], drop) else s
  }

  /** `lstrip` keeps a suffix, cuts off only dropped characters, and stops
      at the first character it keeps. */
  lemma {:induction false} TrimStartSpec(s: string, drop: char -> bool)
    ensures var r := TrimStart(s, drop);
      && |r| <= |s| && r == s[|s| - |r|..]
      && (forall k :: 0 <= k < |s| - |r| ==> drop(s[k]))
      && (|r| > 0 ==> !drop(r[0]))
    decreases |s|
  {
    if |s| > 0 && drop(s[0]) {
      TrimStartSpec(s[1..], drop);
    }
  }

  /** `str.rstrip(chars)`. */
  function TrimEnd(s: string, drop: char -> bool): string {
    if |s| > 0 && drop(s[|s| - 1]) then TrimEnd(s[..|s| - 1], drop) else s
  }

  /** `rstrip` keeps a prefix, cuts off only dropped characters, and stops
      at the last character it keeps. */
  lemma {:induction false} TrimEndSpec(s: string, drop: char -> bool)
    ensures var r := TrimEnd(s, drop);
      && |r| <= |s| && r == s[..|r|]
      && (forall k :: |r| <= k < |s| ==> drop(s[k]))
      && (|r| > 0 ==> !drop(r[|r| - 1]))
    decreases |s|
  {
    if |s| > 0 && drop(s[|s| - 1]) {
      TrimEndSpec(s[..|s| - 1], drop);
    }
  }

  /** `str.strip(chars)`: `lstrip` then `rstrip`. */
  function Strip(s: string, drop: char -> bool): string {
    TrimEnd(TrimStart(s, drop), drop)
  }

  /** Neither end of what `Strip` keeps is a dropped character. */
  lemma StripEnds(s: string, drop: char -> bool)
    ensures var r := Strip(s, drop);
      |r| > 0 ==> !drop(r[0]) && !drop(r[|r| - 1])
  {
    var t := TrimStart(s, drop);
    var r := TrimEnd(t, drop);
    TrimStartSpec(s, drop);
    TrimEndSpec(t, drop);
    if |r| > 0 {
      assert r[0] == t[0];
    }
  }

  /** What `Strip` keeps is the infix of `s` between a dropped prefix and a
      dropped suffix; nothing is left exactly when every character is
      dropped. */
  lemma StripSpec(s: string, drop: char -> bool)
    ensures var r := Strip(s, drop);
      && (exists i :: 0 <= i <= |s| - |r| && r <= s[i..]
            && (forall k :: 0 <= k < i ==> drop(s[k]))
            && (forall k :: i + |r| <= k < |s| ==> drop(s[k])))
      && (|r| > 0 ==> !drop(r[0]) && !drop(r[|r| - 1]))
      && (|r| == 0 <==> forall k :: 0 <= k < |s| ==> drop(s[k]))
  {
    var t := TrimStart(s, drop);
    var r := TrimEnd(t, drop);
    var i := |s| - |t|;
    TrimStartSpec(s, drop);
    TrimEndSpec(t, drop);
    StripEnds(s, drop);
    assert t == s[i..];
    assert r == t[..|r|];
    assert r <= s[i..];
    assert forall k :: i + |r| <= k < |s| ==> s[k] == t[k - i];
    assert forall k :: i + |r| <= k < |s| ==> drop(s[k]);
    if |r| > 0 {
      assert s[i] == r[0];
    }
  }

  /** `str.strip()` without an argument. */
  function StripSpace(s: string): string {
    Strip(s, IsSpace)
  }

  /** `s.split(sep)` for a one-character separator. */
  function Split(s: string, sep: char): (r: seq<string>)
    ensures |r| >= 1
  {
    if |s| == 0 then [""]
    else
      var rest := Split(s[1..], sep);
      if s[0] == sep then [""] + rest else [[s[0]] + rest[0]] + rest[1..]
  }

  /** No piece of a split contains the separator. */
  lemma {:induction false} SplitPieces(s: string, sep: char)
    ensures forall k :: 0 <= k < |Split(s, sep)| ==> sep !in Split(s, sep)[k]
    decreases |s|
  {
    if |s| > 0 {
      SplitPieces(s[1..], sep);
    }
  }

  /** `sep.join(parts)`. */
  function Join(parts: seq<string>, sep: char): string {
    if |parts| == 0 then ""
    else if |parts| == 1 then parts[0]
    else parts[0] + [sep] + Join(parts[1..], sep)
  }

  /** Splitting and re-joining on the same separator gives the text back. */
  lemma {:induction false} JoinSplit(s: string, sep: char)
    ensures Join(Split(s, sep), sep) == s
  {
    if |s| > 0 {
      var rest := Split(s[1..], sep);
      JoinSplit(s[1..], sep);
      if s[0] == sep {
        assert Split(s, sep) == [""] + rest;
      } else {
        var parts := Split(s, sep);
        assert parts == [[s[0]] + rest[0]] + rest[1..];
        if |rest| == 1 {
          assert Join(parts, sep) == [s[0]] + rest[0];
        } else {
          assert parts[1..] == rest[1..];
          assert Join(rest, sep) == rest[0] + [sep] + Join(rest[1..], sep);
        }
      }
    }
  }

  /** Joining separator-free parts and splitting again gives the parts back. */
  lemma {:induction false} SplitJoin(parts: seq<string>, sep: char)
    requires |parts| >= 1
    requires forall k :: 0 <= k < |parts| ==> sep !in parts[k]
    ensures Split(Join(parts, sep), sep) == parts
  {
    if |parts| == 1 {
      SplitWithoutSeparator(parts[0], sep);
    } else {
      SplitJoin(parts[1..], sep);
      SplitAppend(parts[0], Join(parts[1..], sep), sep);
      SplitWithoutSeparator(parts[0], sep);
      assert [parts[0]] + parts[1..] == parts;
    }
  }

  /** Text without the separator is one piece. */
  lemma {:induction false} SplitWithoutSeparator(s: string, sep: char)
    requires sep !in s
    ensures Split(s, sep) == [s]
  {
    if |s| > 0 {
      SplitWithoutSeparator(s[1..], sep);
      assert [s[0]] + s[1..] == s;
    }
  }

  /** A separator between `a` and `b` splits them independently. */
  lemma {:induction false} SplitAppend(a: string, b: string, sep: char)
    ensures Split(a + [sep] + b, sep) == Split(a, sep) + Split(b, sep)
  {
    var s := a + [sep] + b;
    if |a| == 0 {
      assert s[1..] == b;
    } else {
      assert s[1..] == a[1..] + [sep] + b;
      SplitAppend(a[1..], b, sep);
    }
  }

  /** Position of the first `c` in `s` (`s.index(c)`). */
  function IndexOf(s: string, c: char): (i: nat)
    requires c in s
    ensures i < |s| && s[i] == c && c !in s[..i]
  {
    if s[0] == c then 0 else 1 + IndexOf(s[1..], c)
  }

  /** `s.split(c, 1)[-1]`: the text after the first `c`, or all of `s` when
      there is none. */
  function AfterFirst(s: string, c: char): (r: string)
    ensures c !in s ==> r == s
    ensures c in s ==> exists i :: 0 <= i < |s| && s[i] == c && c !in s[..i] && r == s[i + 1..]
  {
    if c in s then s[IndexOf(s, c) + 1..] else s
  }

  /** `s.rfind(c)`: the last position of `c`, or -1. */
  function LastIndexOf(s: string, c: char): (i: int)
    ensures -1 <= i < |s|
    ensures i == -1 <==> c !in s
    ensures i >= 0 ==> s[i] == c && c !in s[i + 1..]
  {
    if |s| == 0 then -1
    else if s[|s| - 1] == c then |s| - 1
    else
      var i := LastIndexOf(s[..|s| - 1], c);
      assert s == s[..|s| - 1] + [s[|s| - 1]];
      i
  }

  function DigitChar(d: nat): (c: char)
    requires d < 10
    ensures '0' <= c <= '9'
  {
    "0123456789"[d]
  }

  /** `str(n)` for a non-negative integer. */
  function NatToString(n: nat): (r: string)
    ensures |r| >= 1
    ensures forall k :: 0 <= k < |r| ==> '0' <= r[k] <= '9'
  {
    if n < 10 then [DigitChar(n)] else NatToString(n / 10) + [DigitChar(n % 10)]
  }

  /** `int(s)` for a string of decimal digits. */
  function DigitsValue(s: string): nat
    requires forall k :: 0 <= k < |s| ==> '0' <= s[k] <= '9'
  {
    if |s| == 0 then 0
    else DigitsValue(s[..|s| - 1]) * 10 + (s[|s| - 1] as int - '0' as int)
  }

  /** `int(str(n)) == n`. */
  lemma {:induction false} DigitsValueOfNatToString(n: nat)
    ensures DigitsValue(NatToString(n)) == n
  {
    var s := NatToString(n);
    if n < 10 {
      DigitCharValue(n);
      assert s[..0] == [];
    } else {
      var q, d := n / 10, n % 10;
      DigitsValueOfNatToString(q);
      assert s[..|s| - 1] == NatToString(q);
      DigitCharValue(d);
      assert DigitsValue(s) == q * 10 + d;
    }
  }

  lemma DigitCharValue(d: nat)
    requires d < 10
    ensures DigitChar(d) as int - '0' as int == d
  {
  }

  /** Distinct numbers have distinct decimal renderings. */
  lemma NatToStringInjective(m: nat, n: nat)
    requires NatToString(m) == NatToString(n)
    ensures m == n
  {
    DigitsValueOfNatToString(m);
    DigitsValueOfNatToString(n);
  }
}

=== FILE: tools.dfy ===
/** The result record every tool returns, and the one fact kept of the
    sandbox executor: how a finished or failed process launch becomes a
    result. */
module Tools {
  import opened Results

  /** The values the source stores in `ToolResult.metadata`. */
  datatype MetaValue = Text(text: string) | Count(count: int) | Seconds(seconds: real)

  datatype ToolResult = ToolResult(output: string, ok: bool, metadata: Option<map<string, MetaValue>>)

  /** A failed result carrying only a message. */
  function Failure(message: string): (r: ToolResult)
    ensures !r.ok && r.output == message && r.metadata == None
  {
    ToolResult(message, false, None)
  }

  /** What starting the sandbox command produced: the process ran to an exit
      status, or starting it raised an exception with the given text. */
  datatype Launch =
    | Exited(stdout: string, stderr: string, returnCode: int, duration: real)
    | LaunchFailed(message: string)

  /** `SandboxTool.run` after the process is gone. Every launch outcome gives
      a result, so the executor never lets an exception reach its caller;
      success means exit status zero, and a launch exception is a failure
      that carries the exception text and no timing. */
  function SandboxResult(launch: Launch): (r: ToolResult)
    ensures r.ok <==> launch.Exited? && launch.returnCode == 0
    ensures launch.LaunchFailed? ==> r == Failure(launch.message)
    ensures launch.Exited? ==>
              && r.output == launch.stdout + launch.stderr
              && r.metadata == Some(map["duration" := Seconds(launch.duration)])
  {
    match launch
    case Exited(out, err, code, duration) =>
      ToolResult(out + err, code == 0, Some(map["duration" := Seconds(duration)]))
    case LaunchFailed(message) => Failure(message)
  }
}
